=== FILE: README.md ===
# Auction notification function — a Dafny model

This project models the deterministic core of a post-auction cloud function.
Given a closed auction's id and category, the function does three things in order:

1. It notifies the winner. It merges the relational outcome projection into the document record and decides on a winner. Then it sends one fixed-subject mail.
2. It archives the auction. The relational BID and AUCTION rows are exported to CSV staging files and uploaded to `archive/{TYPE}/{id}_{TYPE}.csv`. The document is uploaded as `archive/STATIC/{id}.json`.
3. It cleans up. The relational rows go in one two-table transaction, and the document is deleted.

The stores are immutable values in `Stores.State`:

- relational rows keyed by auction id (`Database`);
- documents keyed by (category, id);
- a staging directory mapping paths to CSV tables;
- a bucket mapping object paths to blobs;
- an outbox of sent mail.

Every gateway operation is a pure state transition. Each can fail in the ways the code can fail, and every such failure is an explicit fault parameter. The parallel branches of each operation touch disjoint parts of the state. So each fan-out is written as sequential composition, and each `join` raises only after all of its branches have run. For the two relational exports, `ExportsCommute` and `StagesCommute` prove that their order does not matter. The other fan-outs (the static branch beside the exports, and the two uploads) are composed in one fixed order; that they touch disjoint paths is stated by the frame clauses, but no commutation lemma is proved for them.

Modules follow the source files:

- `Optional`: Java null made explicit.
- `AuctionRecord`: `AuctionData.java`.
- `Stores`: the abstract state, rows, CSV cells, blobs and messages.
- `RelationalGateway`: `SpannerDatastoreDAOImpl.java`.
- `DocumentGateway`: `FirestoreDAOImpl.java`.
- `NotifyWinner`: `NotifyWinnerServiceImpl.java`.
- `PostAuction`: `PostAuctionServiceImpl.java`.
- `NotificationFunction`: `AuctionNotificationFunction.java`, plus the scenario of the integration test.

Behaviour the code has and the model keeps:

- An unchecked storage exception from `storage.create` is not caught by `writeToGcsBucket`, which catches only `IOException`. So a failed CSV put propagates out of `archiveAuctionData`, and cleanup does not run (`FailedCsvPutSkipsCleanup`). Read and delete errors on the staging file are swallowed.
- An export that fails after its `FileWriter` was opened leaves a staged file. That file holds a prefix of the intended table, and the uploader archives it as it is.
- The static snapshot is named from the record the document read returned. A missing document reads as a fresh record whose id is null. So its snapshot goes to `archive/STATIC/null.json` (`StaticPathOfMissingDocument`).
- The outcome read is an inner join with `C_USER`. An auction row without a matching user yields no row, and then nobody is notified.
- The future returned by the document delete is never awaited. A lost delete surfaces no error.

## Model

| member | source | states |
|---|---|---|
| AuctionRecord.Fresh | src/main/java/com/biddingSystem/cloudFunctions/dto/AuctionData.java:5-18 | a newly constructed record has every one of its thirteen fields null |
| AuctionRecord.SetAuctionId | src/main/java/com/biddingSystem/cloudFunctions/dto/AuctionData.java:25-27 | the getter afterwards returns the value set, and every other field's getter returns what it returned before |
| AuctionRecord.SetMaxBidPrice | src/main/java/com/biddingSystem/cloudFunctions/dto/AuctionData.java:113-115 | the getter afterwards returns the price set (null included), and every other field is unchanged |
| AuctionRecord.SetWinnerEmail | src/main/java/com/biddingSystem/cloudFunctions/dto/AuctionData.java:121-123 | the getter afterwards returns the email set (null included), and every other field is unchanged |
| AuctionRecord.PriceAndWinnerIndependent | src/main/java/com/biddingSystem/cloudFunctions/dto/AuctionData.java:17-18 | price and winner can be set in either order with the same result, so each can be null or not independently of the other |
| RelationalGateway.ReadOutcome | src/main/java/com/biddingSystem/cloudFunctions/dao/impl/SpannerDatastoreDAOImpl.java:38-63 | without a joined AUCTION/C_USER row every field is null, auction id included; with one, the id is the argument, price and winner are the row's columns (null when NULL), and all other fields stay null |
| RelationalGateway.HeaderRow | src/main/java/com/biddingSystem/cloudFunctions/dao/impl/SpannerDatastoreDAOImpl.java:83-84 | the header line has one text cell per column name, in the order the names are given |
| RelationalGateway.BidCells | src/main/java/com/biddingSystem/cloudFunctions/dao/impl/SpannerDatastoreDAOImpl.java:83-94 | a BID line has five cells, and cell i holds the column the i-th header names; a row with a NULL in any column raises instead |
| RelationalGateway.AuctionCells | src/main/java/com/biddingSystem/cloudFunctions/dao/impl/SpannerDatastoreDAOImpl.java:112-131 | an AUCTION line has seven cells aligned with the header; MAX_BID_PRICE and C_USER_ID are null cells exactly when NULL, and a NULL in any other column raises |
| RelationalGateway.Rendered | src/main/java/com/biddingSystem/cloudFunctions/dao/impl/SpannerDatastoreDAOImpl.java:86-94 | the written lines are the converted rows in result order, stopping exactly at the first row whose conversion raises |
| RelationalGateway.RenderedCharacterized | src/main/java/com/biddingSystem/cloudFunctions/dao/impl/SpannerDatastoreDAOImpl.java:86-94 | any line sequence with those three properties is the rendering, so the characterisation is complete |
| RelationalGateway.WriteCsv | src/main/java/com/biddingSystem/cloudFunctions/dao/impl/SpannerDatastoreDAOImpl.java:82-96 | the export loop writes the header followed by exactly the rendering of the result rows |
| RelationalGateway.Stage | src/main/java/com/biddingSystem/cloudFunctions/dao/impl/SpannerDatastoreDAOImpl.java:80-100 | a failed query leaves staging as it was; otherwise the file exists and holds a prefix of the intended table, all of it when nothing fails; no other file changes |
| RelationalGateway.BidStagingFile | src/main/java/com/biddingSystem/cloudFunctions/dao/impl/SpannerDatastoreDAOImpl.java:75-76 | the BID export writes `/tmp/{id}_BID.csv`: the auction id sits between the directory and the table suffix |
| RelationalGateway.AuctionStagingFile | src/main/java/com/biddingSystem/cloudFunctions/dao/impl/SpannerDatastoreDAOImpl.java:104-105 | the AUCTION export writes `/tmp/{id}_AUCTION.csv` |
| RelationalGateway.PartialExportShape | src/main/java/com/biddingSystem/cloudFunctions/dao/impl/SpannerDatastoreDAOImpl.java:82-94 | every prefix of an export starts with the header, holds converted rows in order, and has lines of the header's width |
| RelationalGateway.ExportBids | src/main/java/com/biddingSystem/cloudFunctions/dao/impl/SpannerDatastoreDAOImpl.java:74-101 | writes only `/tmp/{id}_BID.csv`; unless the query fails, the file is a partial BID export with five cells per line; with no fault it is the complete export; never raises |
| RelationalGateway.ExportAuctions | src/main/java/com/biddingSystem/cloudFunctions/dao/impl/SpannerDatastoreDAOImpl.java:103-139 | writes only `/tmp/{id}_AUCTION.csv`; the same shape guarantees with seven cells per line; never raises |
| RelationalGateway.CompleteBidExport | src/main/java/com/biddingSystem/cloudFunctions/dao/impl/SpannerDatastoreDAOImpl.java:83-94 | with no NULL in any bid, the BID file is the header plus exactly one line per bid, line i+1 being bid i |
| RelationalGateway.ArchiveData | src/main/java/com/biddingSystem/cloudFunctions/dao/impl/SpannerDatastoreDAOImpl.java:66-72 | after both exports, the BID file is exactly what the BID export alone would stage and the AUCTION file what the AUCTION export alone would stage; no other staging file changes |
| RelationalGateway.OtherFilesKept | src/main/java/com/biddingSystem/cloudFunctions/dao/impl/SpannerDatastoreDAOImpl.java:66-72 | running both exports changes no staging file other than the auction's BID and AUCTION files |
| RelationalGateway.BothExportsKept | src/main/java/com/biddingSystem/cloudFunctions/dao/impl/SpannerDatastoreDAOImpl.java:68-71 | running one export after the other keeps each export's own file as that export wrote it |
| RelationalGateway.StagingFilesDiffer | src/main/java/com/biddingSystem/cloudFunctions/dao/impl/SpannerDatastoreDAOImpl.java:75-105 | the BID and AUCTION staging files of one auction are different files |
| RelationalGateway.ExportsCommute | src/main/java/com/biddingSystem/cloudFunctions/dao/impl/SpannerDatastoreDAOImpl.java:68-71 | the two parallel exports give the same staging directory in either order |
| RelationalGateway.StagesCommute | src/main/java/com/biddingSystem/cloudFunctions/dao/impl/SpannerDatastoreDAOImpl.java:68-71 | staging writes to different paths commute, whatever their faults |
| RelationalGateway.CleanData | src/main/java/com/biddingSystem/cloudFunctions/dao/impl/SpannerDatastoreDAOImpl.java:142-154 | a committed transaction removes the auction's BID and AUCTION rows; any failure leaves the database exactly as it was and raises; other auctions' rows and the user table are untouched |
| RelationalGateway.CleanDataAllOrNothing | src/main/java/com/biddingSystem/cloudFunctions/dao/impl/SpannerDatastoreDAOImpl.java:143-153 | whatever fails, either both tables lost the auction's rows or the database is unchanged |
| DocumentGateway.Read | src/main/java/com/biddingSystem/cloudFunctions/dao/impl/FirestoreDAOImpl.java:35-59 | a stored document comes back with its id replaced by the argument and all else as stored; a missing one as an all-null record, not an error; a failed wait raises |
| DocumentGateway.Delete | src/main/java/com/biddingSystem/cloudFunctions/dao/impl/FirestoreDAOImpl.java:62-65 | removes the (category, id) document whether or not it exists, touches no other document, never raises |
| DocumentGateway.ReadAfterDelete | src/main/java/com/biddingSystem/cloudFunctions/dao/impl/FirestoreDAOImpl.java:35-65 | read and delete address the same document: after a delete, a read yields the fresh record |
| DocumentGateway.DeleteIdempotent | src/main/java/com/biddingSystem/cloudFunctions/dao/impl/FirestoreDAOImpl.java:62-65 | deleting twice is deleting once |
| NotifyWinner.Merge | src/main/java/com/biddingSystem/cloudFunctions/service/impl/NotifyWinnerServiceImpl.java:52-56 | id, winner and price come from the relational projection, even when null there; every other field comes from the document |
| NotifyWinner.HasWinner | src/main/java/com/biddingSystem/cloudFunctions/service/impl/NotifyWinnerServiceImpl.java:59 | the gate passes exactly when the winner email and the item name are both non-null and non-empty, as `StringUtils.isEmpty` tests them |
| NotifyWinner.SendEmail | src/main/java/com/biddingSystem/cloudFunctions/service/impl/NotifyWinnerServiceImpl.java:67-98 | on success exactly one message is appended, from the fixed sender to the winner, with the fixed subject and the greeting followed by the record; a failure sends nothing and raises |
| NotifyWinner.Notify | src/main/java/com/biddingSystem/cloudFunctions/service/impl/NotifyWinnerServiceImpl.java:46-65 | only the outbox changes; no winner means a normal return with nothing sent; a winner means one message or a raised send error; a failed read raises with nothing changed |
| NotifyWinner.NoJoinedRowNoMail | src/main/java/com/biddingSystem/cloudFunctions/service/impl/NotifyWinnerServiceImpl.java:52-62 | without a joined outcome row the merged winner, id and price are null, and the call returns normally with nothing sent |
| NotifyWinner.MailSentIffWinner | src/main/java/com/biddingSystem/cloudFunctions/service/impl/NotifyWinnerServiceImpl.java:59-64 | when nothing fails, a mail is sent if and only if the merged record has a non-empty winner email and item name |
| PostAuction.StagingFile | src/main/java/com/biddingSystem/cloudFunctions/service/impl/PostAuctionServiceImpl.java:86-87 | the file the uploader reads for each table is exactly the file that table's relational export writes |
| PostAuction.ArchivePath | src/main/java/com/biddingSystem/cloudFunctions/service/impl/PostAuctionServiceImpl.java:86-88 | a CSV artifact lies under `archive/`, and the character right after it is B for BID and A for AUCTION |
| PostAuction.StaticPath | src/main/java/com/biddingSystem/cloudFunctions/service/impl/PostAuctionServiceImpl.java:73-75 | the snapshot lies under `archive/STATIC/`, named by the record's id, or by "null" when the id is null, with the `.json` suffix |
| PostAuction.ArchivePathInjective | src/main/java/com/biddingSystem/cloudFunctions/service/impl/PostAuctionServiceImpl.java:86-88 | two CSV archive paths are equal only for the same auction and table |
| PostAuction.StagingFileInjective | src/main/java/com/biddingSystem/cloudFunctions/service/impl/PostAuctionServiceImpl.java:86-87 | two staging files are equal only for the same auction and table |
| PostAuction.StaticPathIsNotArchivePath | src/main/java/com/biddingSystem/cloudFunctions/service/impl/PostAuctionServiceImpl.java:73-75 | the static snapshot can never overwrite a CSV artifact |
| PostAuction.StaticPathOfStoredDocument | src/main/java/com/biddingSystem/cloudFunctions/service/impl/PostAuctionServiceImpl.java:73-75 | for an existing document the snapshot goes to `archive/STATIC/{id}.json` |
| PostAuction.StaticPathOfMissingDocument | src/main/java/com/biddingSystem/cloudFunctions/service/impl/PostAuctionServiceImpl.java:73-75 | for a missing document the name comes from the fresh record's null id: `archive/STATIC/null.json` |
| PostAuction.WriteToBucket | src/main/java/com/biddingSystem/cloudFunctions/service/impl/PostAuctionServiceImpl.java:83-101 | it raises exactly when the staging file exists and the put fails, and then changes nothing; a failed read (an `IOException`) returns normally with nothing changed; a failed delete returns normally after the upload, leaving the file staged; a staging file is removed only after its contents were put at its archive path; the archive object is untouched unless the put completed; a missing file means nothing happens |
| PostAuction.PushStatic | src/main/java/com/biddingSystem/cloudFunctions/service/impl/PostAuctionServiceImpl.java:71-81 | the record is put at its static path and nothing else changes; a failed put raises |
| PostAuction.UploadArchives | src/main/java/com/biddingSystem/cloudFunctions/service/impl/PostAuctionServiceImpl.java:65-67 | both uploads run: the join raises `ArchiveUploadFailed` exactly when either staged file's put fails, and an upload that succeeds removes its staging file even when the other put failed; only the two archive paths and the two staging files can change, and a removed staging file was archived with its contents, while one left behind keeps its staged contents |
| PostAuction.UploadPairFrame | src/main/java/com/biddingSystem/cloudFunctions/service/impl/PostAuctionServiceImpl.java:65-67 | the two uploads together change no staging file but the auction's two and no bucket object but its two archive paths |
| PostAuction.UploadPairOutcome | src/main/java/com/biddingSystem/cloudFunctions/service/impl/PostAuctionServiceImpl.java:65-67 | the BID upload leaves the AUCTION file staged, so one of the two raises exactly when either file is staged and its put fails, and what is raised is `ArchiveUploadFailed` |
| PostAuction.UploadPairFiles | src/main/java/com/biddingSystem/cloudFunctions/service/impl/PostAuctionServiceImpl.java:65-67 | after both uploads, each successfully uploaded file is gone from staging, and any file gone from staging is in the bucket with its staged contents |
| PostAuction.UploadedObjects | src/main/java/com/biddingSystem/cloudFunctions/service/impl/PostAuctionServiceImpl.java:65-67 | after both uploads, each archive object holds its staged contents if that put completed (a failed delete included), and is as it was if the file was missing, unreadable or its put failed |
| PostAuction.PushedObjects | src/main/java/com/biddingSystem/cloudFunctions/service/impl/PostAuctionServiceImpl.java:60-67 | the static put never touches a CSV archive object, so after it and the uploads each archive object is decided by its upload alone |
| PostAuction.ArchiveRecord | src/main/java/com/biddingSystem/cloudFunctions/service/impl/PostAuctionServiceImpl.java:60-67 | a failed static put raises with nothing changed, so no CSV upload starts; otherwise the snapshot is in the bucket, and the outcome is the uploads' join (raised exactly when a staged put fails); each archive object then holds its staged contents if its put completed and is untouched otherwise; only the snapshot path, the two archive paths and the two staging files can change |
| PostAuction.ArchiveAuctionData | src/main/java/com/biddingSystem/cloudFunctions/service/impl/PostAuctionServiceImpl.java:56-69 | never touches rows, documents or mail; a failed document read or static put raises that error after the exports ran, with the bucket untouched; otherwise it raises exactly when a put of a file the exports staged fails; a successful upload archives the file as the exports staged it (so uploads follow the exports); when the read and static put succeed, the snapshot is in the bucket even if a CSV put then raises, and each archive object holds the file the exports staged if its put completed, a failed delete included, and is untouched if the file was missing, unreadable or its put failed; only this auction's snapshot path, two archive paths and two staging files can change |
| PostAuction.StagedFrame | src/main/java/com/biddingSystem/cloudFunctions/dao/impl/SpannerDatastoreDAOImpl.java:66-72 | the exports of the archive step change no staging file but this auction's two |
| PostAuction.CleanUpAuctionData | src/main/java/com/biddingSystem/cloudFunctions/service/impl/PostAuctionServiceImpl.java:46-53 | exactly the auction's rows (atomically) and its (category, id) document are deleted; a failed transaction raises, the document delete still ran; the document is gone unless the delete is lost, which leaves the documents exactly as they were; staging, bucket and mail are untouched |
| PostAuction.CleanUpIdempotent | src/main/java/com/biddingSystem/cloudFunctions/service/impl/PostAuctionServiceImpl.java:46-53 | cleaning up an already cleaned-up auction is a no-op that raises nothing |
| NotificationFunction.ParsePayload | src/main/java/com/biddingSystem/cloudFunctions/AuctionNotificationFunction.java:27-30 | the pair is read from the fields "auctionId" and "category", and a missing field fails the invocation |
| NotificationFunction.Run | src/main/java/com/biddingSystem/cloudFunctions/AuctionNotificationFunction.java:33-35 | a notify failure is the invocation's result, the same error with no store changed; a failure other than the cleanup transaction leaves rows and document in place; rows or document are deleted only after notification succeeded and the static snapshot is in the bucket; the outbox is exactly what notification left it, so at most one mail; after a normal notification, staging and bucket are exactly as archiving and cleanup leave them; rows change only by losing both of the auction's row sets, and a failed transaction leaves every row in place; only this auction's rows and document, its two staging files and its three artifact paths can change, and the user table never does |
| NotificationFunction.ArchiveThenCleanUp | src/main/java/com/biddingSystem/cloudFunctions/AuctionNotificationFunction.java:34-35 | an archive error propagates with rows and document untouched; after a normal archive, the step raises exactly when the transaction fails, and a commit removes the auction's rows; cleanup leaves staging and bucket exactly as archiving left them; rows change only by losing both of the auction's row sets, and a failed transaction leaves every row in place; only this auction's data can change |
| NotificationFunction.ArchiveThenCleanUpFrames | src/main/java/com/biddingSystem/cloudFunctions/AuctionNotificationFunction.java:34-35 | archiving and the cleanup behind it change only this auction's rows (both row sets or none), its document, its two staging files and its three artifact paths |
| NotificationFunction.ArchiveThenCleanUpOutcome | src/main/java/com/biddingSystem/cloudFunctions/AuctionNotificationFunction.java:34-35 | cleanup runs exactly when archiving returned normally, and rows or the document are deleted only after the static snapshot was put |
| NotificationFunction.CleanUpUnlessRaised | src/main/java/com/biddingSystem/cloudFunctions/AuctionNotificationFunction.java:34-35 | an exception from the previous step propagates unchanged and skips cleanup; otherwise the step raises `TransactionFailed` exactly when the transaction fails, a commit removes both row sets, a delete that is not lost removes the document, and staging, bucket and mail stay as the previous step left them |
| NotificationFunction.ArchiveFailureSkipsCleanup | src/main/java/com/biddingSystem/cloudFunctions/AuctionNotificationFunction.java:34-35 | when archiving raises after a successful notification, the invocation raises that same error and every row and document is still there |
| NotificationFunction.CleanupAfterArchive | src/main/java/com/biddingSystem/cloudFunctions/AuctionNotificationFunction.java:34-35 | when notification and archiving return normally, the invocation raises exactly when the transaction fails; a commit leaves no row of the auction, and a delete that is not lost leaves no document |
| NotificationFunction.FailedCsvPutSkipsCleanup | src/main/java/com/biddingSystem/cloudFunctions/service/impl/PostAuctionServiceImpl.java:94-100 | a failed BID put is not caught, so the invocation raises `ArchiveUploadFailed` with rows and document in place, while the AUCTION upload beside it has completed |
| NotificationFunction.Service | src/main/java/com/biddingSystem/cloudFunctions/AuctionNotificationFunction.java:24-36 | a malformed payload raises with nothing changed; otherwise the three steps run with the payload's pair |
| NotificationFunction.CompleteRun | src/main/java/com/biddingSystem/cloudFunctions/AuctionNotificationFunction.java:33-35 | with no failures, no rows and no document remain; the BID and AUCTION artifacts hold the exported files (each stops at its first row with a NULL in a required column) and the static path holds the JSON snapshot of the record read; no staging file is left |
| NotificationFunction.CleanupWithoutBidArchive | src/main/java/com/biddingSystem/cloudFunctions/AuctionNotificationFunction.java:34-35 | when the BID export fails silently, the invocation still succeeds and deletes the BID rows that were never archived |
| NotificationFunction.NoWinnerStillArchives | src/test/java/com/biddingSystem/cloudFunctions/AuctionNotificationFunctionTest.java:52-75 | an auction whose row names no user gets no mail but still has all three artifacts archived |
| NotificationFunction.IntegrationScenario | src/test/java/com/biddingSystem/cloudFunctions/AuctionNotificationFunctionTest.java:36-104 | auction `01920b11` in `Car` with no winner: normal return, empty outbox, and the three documented archive paths exist |
| NotificationFunction.StaticTestPath | src/test/java/com/biddingSystem/cloudFunctions/AuctionNotificationFunctionTest.java:57 | the static path of the test auction's stored document is exactly `archive/STATIC/01920b11.json`, the path the test looks up |
| NotificationFunction.BidTestPath | src/test/java/com/biddingSystem/cloudFunctions/AuctionNotificationFunctionTest.java:59 | `ArchivePath` of the test auction's BID table is exactly `archive/BID/01920b11_BID.csv`, the path the test looks up |
| NotificationFunction.AuctionTestPath | src/test/java/com/biddingSystem/cloudFunctions/AuctionNotificationFunctionTest.java:58 | `ArchivePath` of the test auction's AUCTION table is exactly `archive/AUCTION/01920b11_AUCTION.csv`, the path the test looks up |

## Left out

- Credential and client construction, the environment defaults and the lazily built singletons. These are plumbing with no behaviour to state.
- Threads and `CompletableFuture` scheduling. Branches are composed sequentially, since they touch disjoint state (`ExportsCommute`). When both reads of `notifyWinner` fail, the model reports the relational error. This matches the code: `thenCombine` completes only after both futures have, and it takes the exception of its receiver, the relational future, first.
- SMTP session setup and `Transport.send`. Sending appends to the outbox, and the transport's failure is a fault flag. This also covers an address that does not parse, since it raises the same exception.
- Gson and opencsv text rendering. A blob or mail body holds the record itself, and a CSV line holds typed cells. The quoting, escaping and JSON layout are not modelled.
- Floating-point prices, `String.valueOf(double)` and `Timestamp.toString()`. Prices and timestamps are opaque values that are only copied.
- Reading the HTTP request and parsing its JSON. The payload is a map of already-read top-level string fields. A non-string field value is not modelled.
- The ten setters that the core never calls. They have the same shape as the three that are modelled.
- RelationalGateway.Stage: on an aborted export it keeps every line written before the failure. The real writer is neither flushed nor closed on that path, so the file on disk may hold fewer lines. Any prefix is possible, but the model fixes this one.
- DocumentGateway.Read: leaves out the case where a stored document converts to null. The code then returns null, and the merge fails with a null dereference.
- RelationalGateway.CleanData: leaves out the automatic retry of aborted transactions. A transaction either commits or fails.
- The clock the integration test reads when it builds its data. `TestState` fixes it at 0 seconds, so the expiry it writes four days ahead is 345600 seconds.
- Logging everywhere.

=== FILE: auction_data.dfy ===
/**
 The `AuctionData` record: thirteen independently nullable fields with one
 getter and one setter each. The getters are the datatype's field accessors;
 the setters used by the workflow are functions returning the updated record.
 */
module AuctionRecord {
  import opened Optional

  /** A Java `Double`; the model only stores and compares prices. */
  datatype Price = Price(amount: real)

  datatype AuctionData = AuctionData(
    auctionId: Option<string>,
    userEmail: Option<string>,
    itemCategory: Option<string>,
    itemName: Option<string>,
    basePrice: Option<Price>,
    currencyCode: Option<string>,
    convertedBasePrice: Option<Price>,
    expirationTime: Option<string>,
    creationTime: Option<string>,
    expirationInSeconds: Option<int>,
    itemAttributes: Option<map<string, string>>,
    maxBidPrice: Option<Price>,
    winnerEmail: Option<string>)

  /** The names of the thirteen fields, so that "every other field" can be quantified over. */
  datatype Field =
    | AuctionId | UserEmail | ItemCategory | ItemName | BasePrice | CurrencyCode
    | ConvertedBasePrice | ExpirationTime | CreationTime | ExpirationInSeconds
    | ItemAttributes | MaxBidPrice | WinnerEmail

  /** The value of one field, tagged with its Java type. */
  datatype FieldValue =
    | TextValue(text: Option<string>)
    | PriceValue(price: Option<Price>)
    | LongValue(long: Option<int>)
    | AttributesValue(attributes: Option<map<string, string>>)

  predicate IsNull(v: FieldValue) {
    match v
    case TextValue(t) => t.None?
    case PriceValue(p) => p.None?
    case LongValue(n) => n.None?
    case AttributesValue(m) => m.None?
  }

  /** The getter for field `f`. */
  function Get(d: AuctionData, f: Field): FieldValue {
    match f
    case AuctionId => TextValue(d.auctionId)
    case UserEmail => TextValue(d.userEmail)
    case ItemCategory => TextValue(d.itemCategory)
    case ItemName => TextValue(d.itemName)
    case BasePrice => PriceValue(d.basePrice)
    case CurrencyCode => TextValue(d.currencyCode)
    case ConvertedBasePrice => PriceValue(d.convertedBasePrice)
    case ExpirationTime => TextValue(d.expirationTime)
    case CreationTime => TextValue(d.creationTime)
    case ExpirationInSeconds => LongValue(d.expirationInSeconds)
    case ItemAttributes => AttributesValue(d.itemAttributes)
    case MaxBidPrice => PriceValue(d.maxBidPrice)
    case WinnerEmail => TextValue(d.winnerEmail)
  }

  /** `new AuctionData()`. */
  function Fresh(): (d: AuctionData)
    ensures forall f :: IsNull(Get(d, f))
  {
    AuctionData(None, None, None, None, None, None, None, None, None, None, None, None, None)
  }

  /** `setAuctionId`. */
  function SetAuctionId(d: AuctionData, v: Option<string>): (r: AuctionData)
    ensures r.auctionId == v
    ensures forall f :: f != AuctionId ==> Get(r, f) == Get(d, f)
  {
    d.(auctionId := v)
  }

  /** `setMaxBidPrice`. */
  function SetMaxBidPrice(d: AuctionData, v: Option<Price>): (r: AuctionData)
    ensures r.maxBidPrice == v
    ensures forall f :: f != MaxBidPrice ==> Get(r, f) == Get(d, f)
  {
    d.(maxBidPrice := v)
  }

  /** `setWinnerEmail`. */
  function SetWinnerEmail(d: AuctionData, v: Option<string>): (r: AuctionData)
    ensures r.winnerEmail == v
    ensures forall f :: f != WinnerEmail ==> Get(r, f) == Get(d, f)
  {
    d.(winnerEmail := v)
  }

  /**
   The price and the winner are independent: setting one never disturbs the
   other, in either order, so every combination of null and non-null is reachable.
   */
  lemma PriceAndWinnerIndependent(d: AuctionData, p: Option<Price>, e: Option<string>)
    ensures SetWinnerEmail(SetMaxBidPrice(d, p), e) == SetMaxBidPrice(SetWinnerEmail(d, e), p)
    ensures SetWinnerEmail(SetMaxBidPrice(d, p), e).maxBidPrice == p
    ensures SetWinnerEmail(SetMaxBidPrice(d, p), e).winnerEmail == e
  {
  }

  /** `StringUtils.isEmpty`: null or the empty string. */
  predicate IsEmptyText(s: Option<string>) {
    s.None? || s.value == ""
  }
}

=== FILE: document_gateway.dfy ===
/**
 The document store gateway: one document per auction, in the collection
 named after the auction's category.
 */
module DocumentGateway {
  import opened Optional
  import opened AuctionRecord
  import opened Stores

  /** Both operations address collection = category, document = auction id. */
  function Key(auctionId: string, category: string): DocKey {
    DocKey(category, auctionId)
  }

  /**
   `getAuctionData`: a stored document comes back with its id overwritten by
   the argument; a missing one as a fresh record, not an error. A failure
   while waiting for the read is rethrown.
   */
  function Read(docs: map<DocKey, AuctionData>, auctionId: string, category: string, fails: bool)
    : (r: Result<AuctionData>)
    ensures fails <==> r.Err?
    ensures fails ==> r.error == DocumentReadFailed
    ensures !fails && Key(auctionId, category) in docs ==>
              && r.value.auctionId == Some(auctionId)
              && forall f :: f != AuctionId ==> Get(r.value, f) == Get(docs[Key(auctionId, category)], f)
    ensures !fails && Key(auctionId, category) !in docs ==> forall f :: IsNull(Get(r.value, f))
  {
    if fails then Err(DocumentReadFailed)
    else if Key(auctionId, category) in docs then Ok(SetAuctionId(docs[Key(auctionId, category)], Some(auctionId)))
    else Ok(Fresh())
  }

  /**
   `deleteDocument`: the delete is issued whether or not the document exists
   and never reports an error. Its future is not awaited, so a delete that is
   `lost` leaves the collection as it was without anyone noticing.
   */
  function Delete(docs: map<DocKey, AuctionData>, auctionId: string, category: string, lost: bool)
    : (r: map<DocKey, AuctionData>)
    ensures SameExcept(docs, r, Key(auctionId, category))
    ensures !lost ==> Key(auctionId, category) !in r
    ensures lost ==> r == docs
  {
    if lost then docs else docs - {Key(auctionId, category)}
  }

  /** Read and delete address the same document: after a delete, a read finds nothing. */
  lemma ReadAfterDelete(docs: map<DocKey, AuctionData>, auctionId: string, category: string)
    ensures Read(Delete(docs, auctionId, category, false), auctionId, category, false) == Ok(Fresh())
  {
  }

  /** Deleting twice is deleting once. */
  lemma DeleteIdempotent(docs: map<DocKey, AuctionData>, auctionId: string, category: string)
    ensures Delete(Delete(docs, auctionId, category, false), auctionId, category, false)
         == Delete(docs, auctionId, category, false)
  {
  }
}

=== FILE: notification_function.dfy ===
/**
 The function's entry point: read (auctionId, category) from the payload,
 then notify, archive and clean up, in that order, with the same pair.
 */
module NotificationFunction {
  import opened Optional
  import opened AuctionRecord
  import opened Stores
  import RelationalGateway
  import DocumentGateway
  import NotifyWinner
  import PostAuction

  /** The top-level fields of the JSON payload, already read from the request. */
  type Payload = map<string, string>

  /** Reading the two required fields; a missing one fails the invocation. */
  function ParsePayload(payload: Payload): (r: Result<(string, string)>)
    ensures r.Ok? <==> "auctionId" in payload && "category" in payload
    ensures r.Ok? ==> r.value.0 == payload["auctionId"] && r.value.1 == payload["category"]
    ensures r.Err? ==> r.error == MalformedPayload
  {
    if "auctionId" !in payload || "category" !in payload then Err(MalformedPayload)
    else Ok((payload["auctionId"], payload["category"]))
  }

  datatype Faults = Faults(
    notify: NotifyWinner.NotifyFaults,
    archive: PostAuction.ArchiveFaults,
    cleanup: PostAuction.CleanupFaults)

  /** No call fails. */
  const NoFaults: Faults := Faults(
    NotifyWinner.NotifyFaults(false, false, false),
    PostAuction.ArchiveFaults(RelationalGateway.Exported, RelationalGateway.Exported, false, false,
                              PostAuction.Uploaded, PostAuction.Uploaded),
    PostAuction.CleanupFaults(RelationalGateway.Commits, false))

  /**
   The steps after a successful notification: archive, and clean up only if
   archiving returned normally. An archive error propagates with both live
   stores as they were; only this auction's rows, document, staging files
   and artifacts can change.
   */
  function ArchiveThenCleanUp(n: State, auctionId: string, category: string, f: Faults): (r: Step)
    ensures r.state.outbox == n.outbox
    ensures var archived := PostAuction.ArchiveAuctionData(n, auctionId, category, f.archive);
            r.state.staging == archived.state.staging && r.state.bucket == archived.state.bucket
    ensures SameExcept(n.db.auctions, r.state.db.auctions, auctionId)
    ensures SameExcept(n.db.bids, r.state.db.bids, auctionId)
    ensures r.state.db.userEmails == n.db.userEmails
    ensures r.state.db != n.db ==> auctionId !in r.state.db.auctions && auctionId !in r.state.db.bids
    ensures !f.cleanup.transaction.Commits? ==> r.state.db == n.db
    ensures SameExcept(n.docs, r.state.docs, DocumentGateway.Key(auctionId, category))
    ensures forall p :: p != PostAuction.StaticPath(PostAuction.DocumentRecord(n, auctionId, category))
                        && p != PostAuction.ArchivePath(auctionId, PostAuction.Bid)
                        && p != PostAuction.ArchivePath(auctionId, PostAuction.Auction) ==>
              SameAt(n.bucket, r.state.bucket, p)
    ensures forall p :: p != PostAuction.StagingFile(auctionId, PostAuction.Bid)
                        && p != PostAuction.StagingFile(auctionId, PostAuction.Auction) ==>
              SameAt(n.staging, r.state.staging, p)
    ensures var archived := PostAuction.ArchiveAuctionData(n, auctionId, category, f.archive);
            archived.outcome.Raised? ==>
              r.outcome == archived.outcome && r.state.db == n.db && r.state.docs == n.docs
    ensures var archived := PostAuction.ArchiveAuctionData(n, auctionId, category, f.archive);
            archived.outcome == Normal ==>
              && (r.outcome.Raised? <==> !f.cleanup.transaction.Commits?)
              && (f.cleanup.transaction.Commits? ==> auctionId !in r.state.db.auctions && auctionId !in r.state.db.bids)
              && (!f.cleanup.deleteLost ==> DocumentGateway.Key(auctionId, category) !in r.state.docs)
    ensures r.state.db != n.db || r.state.docs != n.docs ==>
              var record := PostAuction.DocumentRecord(n, auctionId, category);
              PostAuction.StaticPath(record) in r.state.bucket
              && r.state.bucket[PostAuction.StaticPath(record)] == JsonBlob(record)
    ensures r.outcome.Raised? && r.outcome.error != TransactionFailed ==>
              r.state.db == n.db && r.state.docs == n.docs
  {
    ArchiveThenCleanUpFrames(n, auctionId, category, f);
    ArchiveThenCleanUpOutcome(n, auctionId, category, f);
    CleanUpUnlessRaised(PostAuction.ArchiveAuctionData(n, auctionId, category, f.archive), auctionId, category, f.cleanup)
  }

  /**
   Cleanup runs exactly when archiving returned normally, and it deletes
   rows or the document only after the static snapshot was put.
   */
  lemma ArchiveThenCleanUpOutcome(n: State, auctionId: string, category: string, f: Faults)
    ensures var archived := PostAuction.ArchiveAuctionData(n, auctionId, category, f.archive);
            var r := CleanUpUnlessRaised(archived, auctionId, category, f.cleanup);
            && (archived.outcome.Raised? ==>
                  r.outcome == archived.outcome && r.state.db == n.db && r.state.docs == n.docs)
            && (archived.outcome == Normal ==>
                  && (r.outcome.Raised? <==> !f.cleanup.transaction.Commits?)
                  && (f.cleanup.transaction.Commits? ==> auctionId !in r.state.db.auctions && auctionId !in r.state.db.bids)
                  && (!f.cleanup.deleteLost ==> DocumentGateway.Key(auctionId, category) !in r.state.docs))
            && (r.state.db != n.db || r.state.docs != n.docs ==>
                  var record := PostAuction.DocumentRecord(n, auctionId, category);
                  PostAuction.StaticPath(record) in r.state.bucket
                  && r.state.bucket[PostAuction.StaticPath(record)] == JsonBlob(record))
            && (r.outcome.Raised? && r.outcome.error != TransactionFailed ==>
                  r.state.db == n.db && r.state.docs == n.docs)
  {
    var archived := PostAuction.ArchiveAuctionData(n, auctionId, category, f.archive);
    var r := CleanUpUnlessRaised(archived, auctionId, category, f.cleanup);
    if r.state.db != n.db || r.state.docs != n.docs {
      assert archived.outcome == Normal;
      assert !f.archive.documentReadFails && !f.archive.staticPutFails;
    }
  }

  /** Archiving and the cleanup behind it touch only this auction's rows, document, staging files and artifacts. */
  lemma ArchiveThenCleanUpFrames(n: State, auctionId: string, category: string, f: Faults)
    ensures var r := CleanUpUnlessRaised(PostAuction.ArchiveAuctionData(n, auctionId, category, f.archive),
                                         auctionId, category, f.cleanup);
            && r.state.outbox == n.outbox
            && SameExcept(n.db.auctions, r.state.db.auctions, auctionId)
            && SameExcept(n.db.bids, r.state.db.bids, auctionId)
            && r.state.db.userEmails == n.db.userEmails
            && (r.state.db != n.db ==> auctionId !in r.state.db.auctions && auctionId !in r.state.db.bids)
            && (!f.cleanup.transaction.Commits? ==> r.state.db == n.db)
            && SameExcept(n.docs, r.state.docs, DocumentGateway.Key(auctionId, category))
            && (forall p :: p != PostAuction.StaticPath(PostAuction.DocumentRecord(n, auctionId, category))
                            && p != PostAuction.ArchivePath(auctionId, PostAuction.Bid)
                            && p != PostAuction.ArchivePath(auctionId, PostAuction.Auction) ==>
                  SameAt(n.bucket, r.state.bucket, p))
            && (forall p :: p != PostAuction.StagingFile(auctionId, PostAuction.Bid)
                            && p != PostAuction.StagingFile(auctionId, PostAuction.Auction) ==>
                  SameAt(n.staging, r.state.staging, p))
  {
    var archived := PostAuction.ArchiveAuctionData(n, auctionId, category, f.archive);
    UnchangedStoresKept(n, archived.state, auctionId, category);
  }

  /**
   Cleanup behind an earlier step: a raised step propagates as it is and
   cleanup is skipped; after a normal one the rows and the document are
   deleted, and staging, bucket and mail stay as that step left them.
   */
  function CleanUpUnlessRaised(a: Step, auctionId: string, category: string, f: PostAuction.CleanupFaults): (r: Step)
    ensures r.state.outbox == a.state.outbox && r.state.staging == a.state.staging && r.state.bucket == a.state.bucket
    ensures a.outcome.Raised? ==> r == a
    ensures a.outcome == Normal ==>
              && (r.outcome.Raised? <==> !f.transaction.Commits?)
              && (r.outcome.Raised? ==> r.outcome == Raised(TransactionFailed))
              && (f.transaction.Commits? ==> auctionId !in r.state.db.auctions && auctionId !in r.state.db.bids)
              && (!f.deleteLost ==> DocumentGateway.Key(auctionId, category) !in r.state.docs)
    ensures SameExcept(a.state.db.auctions, r.state.db.auctions, auctionId)
    ensures SameExcept(a.state.db.bids, r.state.db.bids, auctionId)
    ensures r.state.db.userEmails == a.state.db.userEmails
    ensures r.state.db == a.state.db || (auctionId !in r.state.db.auctions && auctionId !in r.state.db.bids)
    ensures SameExcept(a.state.docs, r.state.docs, DocumentGateway.Key(auctionId, category))
  {
    if a.outcome.Raised? then
      UnchangedStoresKept(a.state, a.state, auctionId, category);
      a
    else
      var cleaned := PostAuction.CleanUpAuctionData(a.state, auctionId, category, f);
      assert cleaned.state == cleaned.state.(staging := a.state.staging, bucket := a.state.bucket);
      cleaned
  }

  /** A step that leaves the rows and the documents alone meets every per-auction frame on them. */
  lemma UnchangedStoresKept(s: State, t: State, auctionId: string, category: string)
    requires t.db == s.db && t.docs == s.docs
    ensures SameExcept(s.db.auctions, t.db.auctions, auctionId)
    ensures SameExcept(s.db.bids, t.db.bids, auctionId)
    ensures SameExcept(s.docs, t.docs, DocumentGateway.Key(auctionId, category))
  {
  }

  /**
   The three steps in order; the first one that raises ends the invocation.
   Any failure except the cleanup transaction's leaves both live stores as
   they were, and nothing is deleted unless notification succeeded and the
   static snapshot was uploaded. Only this auction's data can change.
   */
  function Run(s: State, auctionId: string, category: string, f: Faults): (r: Step)
    ensures NotifyWinner.Notify(s, auctionId, category, f.notify).outcome.Raised? ==>
              r == NotifyWinner.Notify(s, auctionId, category, f.notify) && r.state == s
    ensures NotifyWinner.Notify(s, auctionId, category, f.notify).outcome == Normal ==>
              var done := ArchiveThenCleanUp(NotifyWinner.Notify(s, auctionId, category, f.notify).state, auctionId, category, f);
              r.state.staging == done.state.staging && r.state.bucket == done.state.bucket
    ensures r.state.db != s.db ==> auctionId !in r.state.db.auctions && auctionId !in r.state.db.bids
    ensures !f.cleanup.transaction.Commits? ==> r.state.db == s.db
    ensures r.outcome.Raised? && r.outcome.error != TransactionFailed ==>
              r.state.db == s.db && r.state.docs == s.docs
    ensures r.state.db != s.db || r.state.docs != s.docs ==>
              && NotifyWinner.Notify(s, auctionId, category, f.notify).outcome == Normal
              && var record := PostAuction.DocumentRecord(s, auctionId, category);
                 PostAuction.StaticPath(record) in r.state.bucket
                 && r.state.bucket[PostAuction.StaticPath(record)] == JsonBlob(record)
    ensures |s.outbox| <= |r.state.outbox| <= |s.outbox| + 1
    ensures r.state.outbox == NotifyWinner.Notify(s, auctionId, category, f.notify).state.outbox
    ensures SameExcept(s.db.auctions, r.state.db.auctions, auctionId)
    ensures SameExcept(s.db.bids, r.state.db.bids, auctionId)
    ensures r.state.db.userEmails == s.db.userEmails
    ensures SameExcept(s.docs, r.state.docs, DocumentGateway.Key(auctionId, category))
    ensures forall p :: p != PostAuction.StaticPath(PostAuction.DocumentRecord(s, auctionId, category))
                        && p != PostAuction.ArchivePath(auctionId, PostAuction.Bid)
                        && p != PostAuction.ArchivePath(auctionId, PostAuction.Auction) ==>
              SameAt(s.bucket, r.state.bucket, p)
    ensures forall p :: p != PostAuction.StagingFile(auctionId, PostAuction.Bid)
                        && p != PostAuction.StagingFile(auctionId, PostAuction.Auction) ==>
              SameAt(s.staging, r.state.staging, p)
  {
    var notified := NotifyWinner.Notify(s, auctionId, category, f.notify);
    if notified.outcome.Raised? then
      UnchangedStoresKept(s, s, auctionId, category);
      notified
    else
      var n := notified.state;
      assert n == s.(outbox := n.outbox);
      assert PostAuction.DocumentRecord(n, auctionId, category) == PostAuction.DocumentRecord(s, auctionId, category);
      ArchiveThenCleanUp(n, auctionId, category, f)
  }

  /**
   An archive step that raises ends the invocation with its error: cleanup
   never runs, so the rows and the document are all still there.
   */
  lemma ArchiveFailureSkipsCleanup(s: State, auctionId: string, category: string, f: Faults)
    ensures var notified := NotifyWinner.Notify(s, auctionId, category, f.notify);
            var archived := PostAuction.ArchiveAuctionData(notified.state, auctionId, category, f.archive);
            var r := Run(s, auctionId, category, f);
            notified.outcome == Normal && archived.outcome.Raised? ==>
              r.outcome == archived.outcome && r.state.db == s.db && r.state.docs == s.docs
  {
    var notified := NotifyWinner.Notify(s, auctionId, category, f.notify);
    if notified.outcome == Normal {
      assert Run(s, auctionId, category, f) == ArchiveThenCleanUp(notified.state, auctionId, category, f);
    }
  }

  /**
   Once notification and archiving return normally, cleanup runs: the
   invocation raises exactly when the transaction fails, a committed one
   leaves no row of the auction, and a delete that is not lost leaves no
   document.
   */
  lemma CleanupAfterArchive(s: State, auctionId: string, category: string, f: Faults)
    requires NotifyWinner.Notify(s, auctionId, category, f.notify).outcome == Normal
    requires PostAuction.ArchiveAuctionData(NotifyWinner.Notify(s, auctionId, category, f.notify).state,
                                            auctionId, category, f.archive).outcome == Normal
    ensures var r := Run(s, auctionId, category, f);
            && (r.outcome.Raised? <==> !f.cleanup.transaction.Commits?)
            && (f.cleanup.transaction.Commits? ==> auctionId !in r.state.db.auctions && auctionId !in r.state.db.bids)
            && (!f.cleanup.deleteLost ==> DocumentGateway.Key(auctionId, category) !in r.state.docs)
  {
    var n := NotifyWinner.Notify(s, auctionId, category, f.notify).state;
    assert Run(s, auctionId, category, f) == ArchiveThenCleanUp(n, auctionId, category, f);
  }

  /** `service`: the payload's pair, then the three steps. */
  function Service(s: State, payload: Payload, f: Faults): (r: Step)
    ensures ParsePayload(payload).Err? ==> r == Step(s, Raised(MalformedPayload))
    ensures ParsePayload(payload).Ok? ==>
              r == Run(s, ParsePayload(payload).value.0, ParsePayload(payload).value.1, f)
  {
    match ParsePayload(payload)
    case Err(e) => Step(s, Raised(e))
    case Ok((auctionId, category)) => Run(s, auctionId, category, f)
  }

  /**
   With no failures, one invocation leaves no rows and no document for the
   auction, all three artifacts in the bucket holding the exported files and
   the snapshot, and no staging file behind. An exported file stops at the
   first row with a NULL in a required column; `CompleteBidExport` says when
   it holds every row.
   */
  lemma {:induction false} CompleteRun(s: State, auctionId: string, category: string)
    ensures var r := Run(s, auctionId, category, NoFaults);
            && r.outcome == Normal
            && auctionId !in r.state.db.auctions
            && auctionId !in r.state.db.bids
            && DocumentGateway.Key(auctionId, category) !in r.state.docs
            && PostAuction.ArchivePath(auctionId, PostAuction.Bid) in r.state.bucket
            && r.state.bucket[PostAuction.ArchivePath(auctionId, PostAuction.Bid)]
               == CsvBlob(RelationalGateway.BidFile(s.db, auctionId))
            && PostAuction.ArchivePath(auctionId, PostAuction.Auction) in r.state.bucket
            && r.state.bucket[PostAuction.ArchivePath(auctionId, PostAuction.Auction)]
               == CsvBlob(RelationalGateway.AuctionFile(s.db, auctionId))
            && PostAuction.StaticPath(PostAuction.DocumentRecord(s, auctionId, category)) in r.state.bucket
            && r.state.bucket[PostAuction.StaticPath(PostAuction.DocumentRecord(s, auctionId, category))]
               == JsonBlob(PostAuction.DocumentRecord(s, auctionId, category))
            && PostAuction.StagingFile(auctionId, PostAuction.Bid) !in r.state.staging
            && PostAuction.StagingFile(auctionId, PostAuction.Auction) !in r.state.staging
  {
    var f := NoFaults;
    var notified := NotifyWinner.Notify(s, auctionId, category, f.notify);
    assert notified.outcome == Normal;
    var n := notified.state;
    RelationalGateway.StagingFilesDiffer(auctionId);
    PostAuction.ArchivePathsDiffer(auctionId);
    var staged := PostAuction.Staged(n, auctionId, f.archive);
    var bidFile := PostAuction.StagingFile(auctionId, PostAuction.Bid);
    var auctionFile := PostAuction.StagingFile(auctionId, PostAuction.Auction);
    assert staged[bidFile] == RelationalGateway.BidFile(s.db, auctionId);
    assert staged[auctionFile] == RelationalGateway.AuctionFile(s.db, auctionId);
    var record := PostAuction.DocumentRecord(n, auctionId, category);
    var pushed := PostAuction.PushStatic(n.(staging := staged), record, false);
    PostAuction.StaticPathIsNotArchivePath(record, auctionId, PostAuction.Bid);
    PostAuction.StaticPathIsNotArchivePath(record, auctionId, PostAuction.Auction);
    var bid := PostAuction.WriteToBucket(pushed.state, auctionId, PostAuction.Bid, PostAuction.Uploaded);
    var auction := PostAuction.WriteToBucket(bid.state, auctionId, PostAuction.Auction, PostAuction.Uploaded);
    var archived := PostAuction.ArchiveAuctionData(n, auctionId, category, f.archive);
    assert archived == PostAuction.UploadArchives(pushed.state, auctionId, PostAuction.Uploaded, PostAuction.Uploaded);
    assert archived == Step(auction.state, Normal);
  }

  /**
   Export and upload failures are swallowed, so cleanup can delete rows whose
   CSV never reached the bucket: here the BID query fails and the BID rows
   are deleted all the same.
   */
  lemma CleanupWithoutBidArchive(s: State, auctionId: string, category: string)
    requires auctionId in s.db.bids
    requires PostAuction.StagingFile(auctionId, PostAuction.Bid) !in s.staging
    requires PostAuction.ArchivePath(auctionId, PostAuction.Bid) !in s.bucket
    ensures var f := NoFaults.(archive := NoFaults.archive.(bidExport := RelationalGateway.QueryFails));
            var r := Run(s, auctionId, category, f);
            && r.outcome == Normal
            && auctionId !in r.state.db.bids
            && PostAuction.ArchivePath(auctionId, PostAuction.Bid) !in r.state.bucket
  {
    var f := NoFaults.(archive := NoFaults.archive.(bidExport := RelationalGateway.QueryFails));
    var notified := NotifyWinner.Notify(s, auctionId, category, f.notify);
    assert notified.outcome == Normal;
    var n := notified.state;
    var bidPath := PostAuction.ArchivePath(auctionId, PostAuction.Bid);
    PostAuction.ArchivePathsDiffer(auctionId);
    var staged := PostAuction.Staged(n, auctionId, f.archive);
    assert PostAuction.StagingFile(auctionId, PostAuction.Bid) !in staged;
    var record := PostAuction.DocumentRecord(n, auctionId, category);
    var pushed := PostAuction.PushStatic(n.(staging := staged), record, false);
    PostAuction.StaticPathIsNotArchivePath(record, auctionId, PostAuction.Bid);
    assert bidPath !in pushed.state.bucket;
    var bid := PostAuction.WriteToBucket(pushed.state, auctionId, PostAuction.Bid, PostAuction.Uploaded);
    assert bid == Step(pushed.state, Normal);
    var auction := PostAuction.WriteToBucket(bid.state, auctionId, PostAuction.Auction, PostAuction.Uploaded);
    assert bidPath !in auction.state.bucket;
    var archived := PostAuction.ArchiveAuctionData(n, auctionId, category, f.archive);
    assert archived == PostAuction.UploadArchives(pushed.state, auctionId, PostAuction.Uploaded, PostAuction.Uploaded);
    assert archived == Step(auction.state, Normal);
    var cleaned := PostAuction.CleanUpAuctionData(archived.state, auctionId, category, f.cleanup);
    assert Run(s, auctionId, category, f) == cleaned;
  }

  /**
   A failed put of the BID CSV propagates out of the archive step, so cleanup
   never runs: the rows and the document stay, while the AUCTION upload that
   ran beside it has completed.
   */
  lemma FailedCsvPutSkipsCleanup(s: State, auctionId: string, category: string)
    ensures var f := NoFaults.(archive := NoFaults.archive.(bidUpload := PostAuction.PutFails));
            var r := Run(s, auctionId, category, f);
            && r.outcome == Raised(ArchiveUploadFailed)
            && r.state.db == s.db
            && r.state.docs == s.docs
            && PostAuction.ArchivePath(auctionId, PostAuction.Auction) in r.state.bucket
            && r.state.bucket[PostAuction.ArchivePath(auctionId, PostAuction.Auction)]
               == CsvBlob(RelationalGateway.AuctionFile(s.db, auctionId))
  {
    var f := NoFaults.(archive := NoFaults.archive.(bidUpload := PostAuction.PutFails));
    var notified := NotifyWinner.Notify(s, auctionId, category, f.notify);
    assert notified.outcome == Normal;
    var n := notified.state;
    var staged := PostAuction.Staged(n, auctionId, f.archive);
    var bidFile := PostAuction.StagingFile(auctionId, PostAuction.Bid);
    var auctionFile := PostAuction.StagingFile(auctionId, PostAuction.Auction);
    assert bidFile in staged;
    assert auctionFile in staged && staged[auctionFile] == RelationalGateway.AuctionFile(s.db, auctionId);
    var archived := PostAuction.ArchiveAuctionData(n, auctionId, category, f.archive);
    assert PostAuction.PutRaises(staged, auctionId, PostAuction.Bid, f.archive.bidUpload);
    assert archived.outcome == Raised(ArchiveUploadFailed);
  }

  /**
   The auction of the repository's integration test: its AUCTION row names no
   user. The test reads the clock; here it reads 0 seconds, so "four days
   from now" is 345600 seconds.
   */
  function TestState(): State {
    var auction := AuctionRow(Some("Car"), Some(Price(1400.0)), Some(Price(1500.0)), None,
                              Some(Timestamp(0, 0)), Some(Timestamp(345600, 0)));
    // The test's BID insert sets no BID_ID, so that column is NULL here.
    var bid := BidRow(None, Some("d90007c2-562a-447a-af38-85d754077fa0"),
                      Some(Price(1500.0)), Some(Timestamp(0, 0)));
    var document := Fresh().(itemCategory := Some("Car"), itemName := Some("BMW A6"),
                             basePrice := Some(Price(1400.0)), currencyCode := Some("USD"),
                             expirationTime := Some("1970-01-05T00:00"), expirationInSeconds := Some(345600),
                             itemAttributes := Some(map["yearOfPurchase" := "2022", "distanceTravelled" := "270KM",
                                                        "color" := "Black"]));
    State(Database(map["01920b11" := auction], map["01920b11" := [bid]], map[]),
          map[DocKey("Car", "01920b11") := document], map[], map[], [])
  }

  /**
   An auction whose row names no user has no winner: the invocation sends no
   mail, and still archives all three artifacts, the static one under the
   auction id since the document exists.
   */
  lemma {:induction false} NoWinnerStillArchives(s: State, auctionId: string, category: string)
    requires auctionId in s.db.auctions && s.db.auctions[auctionId].userId.None?
    requires DocumentGateway.Key(auctionId, category) in s.docs
    ensures var r := Run(s, auctionId, category, NoFaults);
            && r.outcome == Normal
            && r.state.outbox == s.outbox
            && "archive/STATIC/" + auctionId + ".json" in r.state.bucket
            && PostAuction.ArchivePath(auctionId, PostAuction.Bid) in r.state.bucket
            && PostAuction.ArchivePath(auctionId, PostAuction.Auction) in r.state.bucket
  {
    NotifyWinner.NoJoinedRowNoMail(s, auctionId, category, NoFaults.notify);
    CompleteRun(s, auctionId, category);
    PostAuction.StaticPathOfStoredDocument(s.docs, auctionId, category);
  }

  /**
   The integration test's scenario: the auction row has a price but no user,
   so no mail is sent, and the three artifacts land at their documented paths.
   */
  lemma IntegrationScenario()
    ensures var r := Service(TestState(), map["auctionId" := "01920b11", "category" := "Car"], NoFaults);
            && r.outcome == Normal
            && r.state.outbox == []
            && "archive/STATIC/01920b11.json" in r.state.bucket
            && "archive/AUCTION/01920b11_AUCTION.csv" in r.state.bucket
            && "archive/BID/01920b11_BID.csv" in r.state.bucket
  {
    var s := TestState();
    var payload := map["auctionId" := "01920b11", "category" := "Car"];
    TestStateHasNoWinner();
    assert ParsePayload(payload) == Ok(("01920b11", "Car"));
    var r := Run(s, "01920b11", "Car", NoFaults);
    assert Service(s, payload, NoFaults) == r;
    NoWinnerStillArchives(s, "01920b11", "Car");
    StaticTestPath();
    BidTestPath();
    AuctionTestPath();
  }

  lemma TestStateHasNoWinner()
    ensures "01920b11" in TestState().db.auctions
    ensures TestState().db.auctions["01920b11"].userId.None?
    ensures DocumentGateway.Key("01920b11", "Car") in TestState().docs
    ensures TestState().outbox == []
  {
  }

  /** The static path of the test auction's document, spelled out. */
  lemma StaticTestPath()
    ensures PostAuction.StaticPath(PostAuction.DocumentRecord(TestState(), "01920b11", "Car"))
         == "archive/STATIC/01920b11.json"
  {
    TestStateHasNoWinner();
    PostAuction.StaticPathOfStoredDocument(TestState().docs, "01920b11", "Car");
    var p := "archive/STATIC/" + "01920b11" + ".json";
    var q := "archive/STATIC/01920b11.json";
    forall i | 0 <= i < |p| ensures p[i] == q[i] {
      if i < 15 { assert p[i] == "archive/STATIC/"[i]; }
      else if i < 23 { assert p[i] == "01920b11"[i - 15]; }
      else { assert p[i] == ".json"[i - 23]; }
    }
  }

  /** The BID archive path of the test auction, spelled out. */
  lemma BidTestPath()
    ensures PostAuction.ArchivePath("01920b11", PostAuction.Bid) == "archive/BID/01920b11_BID.csv"
  {
    var b := PostAuction.ArchivePath("01920b11", PostAuction.Bid);
    var q := "archive/BID/01920b11_BID.csv";
    assert b == "archive/" + "BID" + "/" + ("01920b11" + "_" + "BID" + ".csv");
    forall i | 0 <= i < |b| ensures b[i] == q[i] {
      if i < 12 { assert b[i] == "archive/BID/"[i]; }
      else if i < 20 { assert b[i] == "01920b11"[i - 12]; }
      else { assert b[i] == "_BID.csv"[i - 20]; }
    }
  }

  /** The AUCTION archive path of the test auction, spelled out. */
  lemma AuctionTestPath()
    ensures PostAuction.ArchivePath("01920b11", PostAuction.Auction) == "archive/AUCTION/01920b11_AUCTION.csv"
  {
    var a := PostAuction.ArchivePath("01920b11", PostAuction.Auction);
    var q := "archive/AUCTION/01920b11_AUCTION.csv";
    assert a == "archive/" + "AUCTION" + "/" + ("01920b11" + "_" + "AUCTION" + ".csv");
    forall i | 0 <= i < |a| ensures a[i] == q[i] {
      if i < 16 { assert a[i] == "archive/AUCTION/"[i]; }
      else if i < 24 { assert a[i] == "01920b11"[i - 16]; }
      else { assert a[i] == "_AUCTION.csv"[i - 24]; }
    }
  }
}

=== FILE: notify_winner.dfy ===
/**
 Winner notification: merge the outcome projection into the document record,
 gate on a winner, and send one fixed-subject mail.
 */
module NotifyWinner {
  import opened Optional
  import opened AuctionRecord
  import opened Stores
  import RelationalGateway
  import DocumentGateway

  const Sender: string := "biddingsystemnotifier@outlook.com"

  const Subject: string := "Congratulations, you are the auction WINNER"

  const Greeting: string := "Congratulations you have won the auction. Below are the details \n\n"

  /** The fields the relational store is the authority for. */
  const OutcomeFields: set<Field> := {AuctionId, WinnerEmail, MaxBidPrice}

  /**
   The merge step: the document record with its id, winner and price
   replaced by the relational projection's values, null ones included.
   */
  function Merge(relational: AuctionData, document: AuctionData): (r: AuctionData)
    ensures forall f :: f in OutcomeFields ==> Get(r, f) == Get(relational, f)
    ensures forall f :: f !in OutcomeFields ==> Get(r, f) == Get(document, f)
  {
    var withId := SetAuctionId(document, relational.auctionId);
    var withWinner := SetWinnerEmail(withId, relational.winnerEmail);
    SetMaxBidPrice(withWinner, relational.maxBidPrice)
  }

  /** The notification gate: a non-empty winner email and a non-empty item name. */
  predicate HasWinner(d: AuctionData)
    ensures HasWinner(d) <==> && d.winnerEmail.Some? && d.winnerEmail.value != ""
                              && d.itemName.Some? && d.itemName.value != ""
  {
    !IsEmptyText(d.winnerEmail) && !IsEmptyText(d.itemName)
  }

  /**
   `sendEmail`: one message from the fixed sender to the winner, with the
   fixed subject and the greeting followed by the record. A transport
   failure sends nothing and is promoted to an error.
   */
  function SendEmail(outbox: seq<Message>, d: AuctionData, fails: bool): (r: Result<seq<Message>>)
    requires d.winnerEmail.Some?
    ensures fails <==> r.Err?
    ensures fails ==> r.error == SendFailed
    ensures !fails ==>
              && |r.value| == |outbox| + 1
              && r.value[..|outbox|] == outbox
              && r.value[|outbox|].from == Sender
              && r.value[|outbox|].to == d.winnerEmail.value
              && r.value[|outbox|].subject == Subject
              && r.value[|outbox|].body == Body(Greeting, d)
  {
    if fails then Err(SendFailed)
    else Ok(outbox + [Message(Sender, d.winnerEmail.value, Subject, Body(Greeting, d))])
  }

  datatype NotifyFaults = NotifyFaults(outcomeReadFails: bool, documentReadFails: bool, sendFails: bool)

  /** The record `notifyWinner` decides on when both reads succeed. */
  function MergedRecord(s: State, auctionId: string, category: string): AuctionData {
    Merge(RelationalGateway.ReadOutcome(s.db, auctionId),
          DocumentGateway.Read(s.docs, auctionId, category, false).value)
  }

  /**
   `notifyWinner`: only the outbox can change, by at most one message, and
   only when the merged record passes the gate.
   */
  function Notify(s: State, auctionId: string, category: string, f: NotifyFaults): (r: Step)
    ensures r.state.db == s.db && r.state.docs == s.docs
    ensures r.state.staging == s.staging && r.state.bucket == s.bucket
    ensures r.outcome.Raised? ==> r.state == s
    ensures f.outcomeReadFails ==> r.outcome == Raised(OutcomeReadFailed)
    ensures !f.outcomeReadFails && f.documentReadFails ==> r.outcome == Raised(DocumentReadFailed)
    ensures !f.outcomeReadFails && !f.documentReadFails ==>
              var d := MergedRecord(s, auctionId, category);
              && (!HasWinner(d) ==> r == Step(s, Normal))
              && (HasWinner(d) && f.sendFails ==> r == Step(s, Raised(SendFailed)))
              && (HasWinner(d) && !f.sendFails ==>
                    && r.outcome == Normal
                    && r.state.outbox == s.outbox + [Message(Sender, d.winnerEmail.value, Subject, Body(Greeting, d))])
  {
    if f.outcomeReadFails then Step(s, Raised(OutcomeReadFailed))
    else
      var document := DocumentGateway.Read(s.docs, auctionId, category, f.documentReadFails);
      if document.Err? then Step(s, Raised(document.error))
      else
        var d := Merge(RelationalGateway.ReadOutcome(s.db, auctionId), document.value);
        if IsEmptyText(d.winnerEmail) || IsEmptyText(d.itemName) then Step(s, Normal)
        else
          match SendEmail(s.outbox, d, f.sendFails)
          case Err(e) => Step(s, Raised(e))
          case Ok(outbox) => Step(s.(outbox := outbox), Normal)
  }

  /**
   Without a joined outcome row the merged winner is null, so nothing is sent
   and the call returns normally, whatever the document holds.
   */
  lemma NoJoinedRowNoMail(s: State, auctionId: string, category: string, f: NotifyFaults)
    requires !RelationalGateway.HasJoinedRow(s.db, auctionId)
    requires !f.outcomeReadFails && !f.documentReadFails
    ensures Notify(s, auctionId, category, f) == Step(s, Normal)
    ensures MergedRecord(s, auctionId, category).winnerEmail.None?
    ensures MergedRecord(s, auctionId, category).auctionId.None?
    ensures MergedRecord(s, auctionId, category).maxBidPrice.None?
  {
    var relational := RelationalGateway.ReadOutcome(s.db, auctionId);
    var d := MergedRecord(s, auctionId, category);
    assert IsNull(Get(relational, WinnerEmail)) && Get(d, WinnerEmail) == Get(relational, WinnerEmail);
    assert IsNull(Get(relational, AuctionId)) && Get(d, AuctionId) == Get(relational, AuctionId);
    assert IsNull(Get(relational, MaxBidPrice)) && Get(d, MaxBidPrice) == Get(relational, MaxBidPrice);
  }

  /** The gate, both ways: a mail goes out exactly when the merged record has a winner. */
  lemma MailSentIffWinner(s: State, auctionId: string, category: string, f: NotifyFaults)
    requires !f.outcomeReadFails && !f.documentReadFails && !f.sendFails
    ensures var r := Notify(s, auctionId, category, f);
            && r.outcome == Normal
            && (|r.state.outbox| == |s.outbox| + 1 <==> HasWinner(MergedRecord(s, auctionId, category)))
            && (|r.state.outbox| == |s.outbox| <==> !HasWinner(MergedRecord(s, auctionId, category)))
  {
  }
}

=== FILE: optional.dfy ===
/** Java's nullable references, made explicit. */
module Optional {

  /** `None` plays the part of `null`; `Some(v)` a non-null reference to `v`. */
  datatype Option<+T> = None | Some(value: T)
}

=== FILE: post_auction.dfy ===
/**
 The post-auction service: archive the relational and document data of one
 auction to the bucket, then delete it from both live stores.
 */
module PostAuction {
  import opened Optional
  import opened AuctionRecord
  import opened Stores
  import RelationalGateway
  import DocumentGateway

  /** The two relational tables that are archived as CSV. */
  datatype Table = Bid | Auction

  function TypeName(t: Table): string {
    match t
    case Bid => "BID"
    case Auction => "AUCTION"
  }

  function CsvFileName(auctionId: string, t: Table): string {
    auctionId + "_" + TypeName(t) + ".csv"
  }

  /** The staging file the uploader reads: the very file the table's relational export writes. */
  function StagingFile(auctionId: string, t: Table): (r: string)
    ensures r == (if t.Bid? then RelationalGateway.BidStagingFile(auctionId)
                  else RelationalGateway.AuctionStagingFile(auctionId))
  {
    var r := "/tmp/" + CsvFileName(auctionId, t);
    assert "_" + TypeName(t) + ".csv" == (if t.Bid? then "_BID.csv" else "_AUCTION.csv");
    assert r == "/tmp/" + auctionId + ("_" + TypeName(t) + ".csv");
    r
  }

  /**
   The object a CSV artifact is uploaded to. It lies under "archive/", and
   character 8, the first of the type directory, tells BID and AUCTION apart.
   */
  function ArchivePath(auctionId: string, t: Table): (r: string)
    ensures |r| > 8 && r[..8] == "archive/"
    ensures r[8] == (if t.Bid? then 'B' else 'A')
  {
    var r := "archive/" + TypeName(t) + "/" + CsvFileName(auctionId, t);
    assert r[8] == TypeName(t)[0];
    r
  }

  /** Java string concatenation: a null reference is written as "null". */
  function JavaText(s: Option<string>): string {
    if s.Some? then s.value else "null"
  }

  /**
   The object the static snapshot goes to, named from the record's own id:
   the JSON file of that id, or of "null", under "archive/STATIC/".
   */
  function StaticPath(record: AuctionData): (r: string)
    ensures |r| == |JavaText(record.auctionId)| + 20
    ensures r[..15] == "archive/STATIC/" && r[8] == 'S'
    ensures r[15..|r| - 5] == JavaText(record.auctionId)
    ensures r[|r| - 5..] == ".json"
  {
    "archive/STATIC/" + JavaText(record.auctionId) + ".json"
  }

  /** A string framed by the same prefix and suffix determines what is between them. */
  lemma {:induction false} Unframe(prefix: string, a: string, b: string, suffix: string)
    requires prefix + a + suffix == prefix + b + suffix
    ensures a == b
  {
    var s := prefix + a + suffix;
    assert |a| == |b|;
    assert a == s[|prefix|..|prefix| + |a|];
    assert b == (prefix + b + suffix)[|prefix|..|prefix| + |b|];
  }

  /** Different auctions or different tables never share an archive path. */
  lemma ArchivePathInjective(id1: string, t1: Table, id2: string, t2: Table)
    requires ArchivePath(id1, t1) == ArchivePath(id2, t2)
    ensures id1 == id2 && t1 == t2
  {
    assert ArchivePath(id1, t1)[8] == ArchivePath(id2, t2)[8];
    assert t1 == t2;
    var prefix := "archive/" + TypeName(t1) + "/";
    var suffix := "_" + TypeName(t1) + ".csv";
    assert ArchivePath(id1, t1) == prefix + id1 + suffix;
    assert ArchivePath(id2, t1) == prefix + id2 + suffix;
    Unframe(prefix, id1, id2, suffix);
  }

  /** The static snapshot never overwrites a CSV artifact. */
  lemma StaticPathIsNotArchivePath(record: AuctionData, auctionId: string, t: Table)
    ensures StaticPath(record) != ArchivePath(auctionId, t)
  {
    assert StaticPath(record)[8] != ArchivePath(auctionId, t)[8];
  }

  /** The fifth-last character of a staging file, 'D' of "_BID.csv" or 'N' of "_AUCTION.csv", tells the table apart. */
  lemma StagingFileTag(auctionId: string, t: Table)
    ensures |StagingFile(auctionId, t)| >= 5
    ensures StagingFile(auctionId, t)[|StagingFile(auctionId, t)| - 5] == (if t.Bid? then 'D' else 'N')
  {
    var f := StagingFile(auctionId, t);
    if t.Bid? {
      assert f[|f| - 5] == f[|f| - 8..][3];
    } else {
      assert f[|f| - 5] == f[|f| - 12..][7];
    }
  }

  /** Staging files for different auctions or tables are different files. */
  lemma StagingFileInjective(id1: string, t1: Table, id2: string, t2: Table)
    requires StagingFile(id1, t1) == StagingFile(id2, t2)
    ensures id1 == id2 && t1 == t2
  {
    StagingFileTag(id1, t1);
    StagingFileTag(id2, t2);
    assert t1 == t2;
    if t1.Bid? {
      assert RelationalGateway.BidStagingFile(id1) == RelationalGateway.BidStagingFile(id2);
    } else {
      assert RelationalGateway.AuctionStagingFile(id1) == RelationalGateway.AuctionStagingFile(id2);
    }
  }

  /** A document that exists is archived under the requested auction id. */
  lemma StaticPathOfStoredDocument(docs: map<DocKey, AuctionData>, auctionId: string, category: string)
    requires DocumentGateway.Key(auctionId, category) in docs
    ensures StaticPath(DocumentGateway.Read(docs, auctionId, category, false).value)
         == "archive/STATIC/" + auctionId + ".json"
  {
  }

  /**
   A missing document is read as a fresh record whose id is null, so its
   snapshot is written to "archive/STATIC/null.json", whatever the auction.
   */
  lemma StaticPathOfMissingDocument(docs: map<DocKey, AuctionData>, auctionId: string, category: string)
    requires DocumentGateway.Key(auctionId, category) !in docs
    ensures StaticPath(DocumentGateway.Read(docs, auctionId, category, false).value) == "archive/STATIC/null.json"
  {
    var d := DocumentGateway.Read(docs, auctionId, category, false).value;
    assert IsNull(Get(d, AuctionId));
  }

  // ---------------------------------------------------------------------------
  // Uploads
  // ---------------------------------------------------------------------------

  /**
   How one CSV upload goes. Reading and deleting the staging file raise
   `IOException`, which is caught; the bucket put raises an unchecked
   storage exception, which is not.
   */
  datatype UploadFault = Uploaded | ReadFails | PutFails | DeleteFails

  /** A CSV upload that propagates an error: the staged file exists and its put fails. */
  predicate PutRaises(staging: map<string, CsvTable>, auctionId: string, t: Table, fault: UploadFault) {
    StagingFile(auctionId, t) in staging && fault.PutFails?
  }

  /**
   A CSV upload whose put completed: the staged file existed, was read, and
   the put went through, whether or not the delete that follows it failed.
   */
  predicate PutCompletes(staging: map<string, CsvTable>, auctionId: string, t: Table, fault: UploadFault) {
    StagingFile(auctionId, t) in staging && (fault.Uploaded? || fault.DeleteFails?)
  }

  /**
   `writeToGcsBucket`: upload a staged CSV file if it exists, then remove it.
   Only a failed put propagates; a failed read uploads nothing, and a failed
   delete leaves the staged file behind after the upload.
   */
  function WriteToBucket(s: State, auctionId: string, t: Table, fault: UploadFault): (r: Step)
    ensures r.state.db == s.db && r.state.docs == s.docs && r.state.outbox == s.outbox
    ensures SameExcept(s.staging, r.state.staging, StagingFile(auctionId, t))
    ensures SameExcept(s.bucket, r.state.bucket, ArchivePath(auctionId, t))
    ensures StagingFile(auctionId, t) !in s.staging ==> r == Step(s, Normal)
    ensures StagingFile(auctionId, t) in r.state.staging ==>
              StagingFile(auctionId, t) in s.staging
              && r.state.staging[StagingFile(auctionId, t)] == s.staging[StagingFile(auctionId, t)]
    ensures StagingFile(auctionId, t) in s.staging && StagingFile(auctionId, t) !in r.state.staging ==>
              && ArchivePath(auctionId, t) in r.state.bucket
              && r.state.bucket[ArchivePath(auctionId, t)] == CsvBlob(s.staging[StagingFile(auctionId, t)])
    ensures r.outcome.Raised? ==> r == Step(s, Raised(ArchiveUploadFailed))
    ensures StagingFile(auctionId, t) in s.staging && fault.Uploaded? ==>
              r.outcome == Normal && StagingFile(auctionId, t) !in r.state.staging
    ensures r.outcome.Raised? <==> PutRaises(s.staging, auctionId, t, fault)
    ensures fault.ReadFails? ==> r == Step(s, Normal)
    ensures !PutCompletes(s.staging, auctionId, t, fault) ==> r.state.bucket == s.bucket
    ensures PutCompletes(s.staging, auctionId, t, fault) ==>
              && ArchivePath(auctionId, t) in r.state.bucket
              && r.state.bucket[ArchivePath(auctionId, t)] == CsvBlob(s.staging[StagingFile(auctionId, t)])
    ensures StagingFile(auctionId, t) in s.staging && fault.DeleteFails? ==>
              && r.outcome == Normal
              && r.state.staging == s.staging
              && ArchivePath(auctionId, t) in r.state.bucket
              && r.state.bucket[ArchivePath(auctionId, t)] == CsvBlob(s.staging[StagingFile(auctionId, t)])
  {
    var file := StagingFile(auctionId, t);
    if file !in s.staging then Step(s, Normal)
    else
      var uploaded := s.bucket[ArchivePath(auctionId, t) := CsvBlob(s.staging[file])];
      match fault
      case ReadFails => Step(s, Normal)
      case PutFails => Step(s, Raised(ArchiveUploadFailed))
      case DeleteFails => Step(s.(bucket := uploaded), Normal)
      case Uploaded => Step(s.(bucket := uploaded, staging := s.staging - {file}), Normal)
  }

  /** `pushStaticAuctionDataToGcs`: put the record's JSON snapshot; a failed put raises. */
  function PushStatic(s: State, record: AuctionData, fails: bool): (r: Step)
    ensures r.state.db == s.db && r.state.docs == s.docs && r.state.outbox == s.outbox
    ensures r.state.staging == s.staging
    ensures SameExcept(s.bucket, r.state.bucket, StaticPath(record))
    ensures fails ==> r == Step(s, Raised(StaticUploadFailed))
    ensures !fails ==> r.outcome == Normal
                       && StaticPath(record) in r.state.bucket
                       && r.state.bucket[StaticPath(record)] == JsonBlob(record)
  {
    if fails then Step(s, Raised(StaticUploadFailed))
    else Step(s.(bucket := s.bucket[StaticPath(record) := JsonBlob(record)]), Normal)
  }

  // ---------------------------------------------------------------------------
  // Archive
  // ---------------------------------------------------------------------------

  datatype ArchiveFaults = ArchiveFaults(
    bidExport: RelationalGateway.ExportFault,
    auctionExport: RelationalGateway.ExportFault,
    documentReadFails: bool,
    staticPutFails: bool,
    bidUpload: UploadFault,
    auctionUpload: UploadFault)

  /** The staging directory once both relational exports have run. */
  function Staged(s: State, auctionId: string, f: ArchiveFaults): map<string, CsvTable> {
    RelationalGateway.ArchiveData(s.db, auctionId, s.staging, f.bidExport, f.auctionExport)
  }

  /** The record the static branch reads when the read succeeds. */
  function DocumentRecord(s: State, auctionId: string, category: string): AuctionData {
    DocumentGateway.Read(s.docs, auctionId, category, false).value
  }

  /**
   What a table's archive object holds after its upload ran on `staging`:
   the staged contents if the put completed, and otherwise whatever
   `bucket` held there before, absence included.
   */
  predicate ArchiveObject(staging: map<string, CsvTable>, bucket: map<string, Blob>, bucket': map<string, Blob>,
                          auctionId: string, t: Table, fault: UploadFault)
  {
    if PutCompletes(staging, auctionId, t, fault) then
      ArchivePath(auctionId, t) in bucket' && bucket'[ArchivePath(auctionId, t)] == CsvBlob(staging[StagingFile(auctionId, t)])
    else SameAt(bucket, bucket', ArchivePath(auctionId, t))
  }

  /**
   The two CSV uploads, run side by side and joined: both always run, and a
   failed put in either one propagates once both are done.
   */
  function UploadArchives(s: State, auctionId: string, bidFault: UploadFault, auctionFault: UploadFault): (r: Step)
    ensures r.state.db == s.db && r.state.docs == s.docs && r.state.outbox == s.outbox
    ensures forall p :: p != StagingFile(auctionId, Bid) && p != StagingFile(auctionId, Auction) ==>
              SameAt(s.staging, r.state.staging, p)
    ensures r.outcome.Raised? <==>
              PutRaises(s.staging, auctionId, Bid, bidFault) || PutRaises(s.staging, auctionId, Auction, auctionFault)
    ensures r.outcome.Raised? ==> r.outcome == Raised(ArchiveUploadFailed)
    ensures StagingFile(auctionId, Bid) in s.staging && bidFault.Uploaded? ==>
              StagingFile(auctionId, Bid) !in r.state.staging
    ensures StagingFile(auctionId, Auction) in s.staging && auctionFault.Uploaded? ==>
              StagingFile(auctionId, Auction) !in r.state.staging
    ensures forall p :: p != ArchivePath(auctionId, Bid) && p != ArchivePath(auctionId, Auction) ==>
              SameAt(s.bucket, r.state.bucket, p)
    ensures forall t :: StagingFile(auctionId, t) in s.staging && StagingFile(auctionId, t) !in r.state.staging ==>
              && ArchivePath(auctionId, t) in r.state.bucket
              && r.state.bucket[ArchivePath(auctionId, t)] == CsvBlob(s.staging[StagingFile(auctionId, t)])
    ensures forall t :: StagingFile(auctionId, t) in r.state.staging ==>
              StagingFile(auctionId, t) in s.staging
              && r.state.staging[StagingFile(auctionId, t)] == s.staging[StagingFile(auctionId, t)]
  {
    RelationalGateway.StagingFilesDiffer(auctionId);
    ArchivePathsDiffer(auctionId);
    UploadPairOutcome(s, auctionId, bidFault, auctionFault);
    UploadPairFiles(s, auctionId, bidFault, auctionFault);
    UploadPairFrame(s, auctionId, bidFault, auctionFault);
    var bid := WriteToBucket(s, auctionId, Bid, bidFault);
    var auction := WriteToBucket(bid.state, auctionId, Auction, auctionFault);
    Step(auction.state, if bid.outcome.Raised? then bid.outcome else auction.outcome)
  }

  /** The BID upload leaves the AUCTION file staged as it was, so the join raises exactly when either put fails. */
  lemma UploadPairOutcome(s: State, auctionId: string, bidFault: UploadFault, auctionFault: UploadFault)
    ensures var bid := WriteToBucket(s, auctionId, Bid, bidFault);
            var auction := WriteToBucket(bid.state, auctionId, Auction, auctionFault);
            && (bid.outcome.Raised? || auction.outcome.Raised? <==>
                  PutRaises(s.staging, auctionId, Bid, bidFault) || PutRaises(s.staging, auctionId, Auction, auctionFault))
            && (bid.outcome.Raised? ==> bid.outcome == Raised(ArchiveUploadFailed))
            && (auction.outcome.Raised? ==> auction.outcome == Raised(ArchiveUploadFailed))
  {
    RelationalGateway.StagingFilesDiffer(auctionId);
    var bid := WriteToBucket(s, auctionId, Bid, bidFault);
    assert SameAt(s.staging, bid.state.staging, StagingFile(auctionId, Auction));
  }

  /** The two uploads touch only their own staging files and their own archive objects. */
  lemma UploadPairFrame(s: State, auctionId: string, bidFault: UploadFault, auctionFault: UploadFault)
    ensures var bid := WriteToBucket(s, auctionId, Bid, bidFault);
            var r := WriteToBucket(bid.state, auctionId, Auction, auctionFault);
            && (forall p :: p != StagingFile(auctionId, Bid) && p != StagingFile(auctionId, Auction) ==>
                  SameAt(s.staging, r.state.staging, p))
            && (forall p :: p != ArchivePath(auctionId, Bid) && p != ArchivePath(auctionId, Auction) ==>
                  SameAt(s.bucket, r.state.bucket, p))
  {
    var bid := WriteToBucket(s, auctionId, Bid, bidFault);
    var r := WriteToBucket(bid.state, auctionId, Auction, auctionFault);
    forall p | p != StagingFile(auctionId, Bid) && p != StagingFile(auctionId, Auction)
      ensures SameAt(s.staging, r.state.staging, p)
    {
      SameExceptAt(s.staging, bid.state.staging, StagingFile(auctionId, Bid), p);
      SameExceptAt(bid.state.staging, r.state.staging, StagingFile(auctionId, Auction), p);
    }
    forall p | p != ArchivePath(auctionId, Bid) && p != ArchivePath(auctionId, Auction)
      ensures SameAt(s.bucket, r.state.bucket, p)
    {
      SameExceptAt(s.bucket, bid.state.bucket, ArchivePath(auctionId, Bid), p);
      SameExceptAt(bid.state.bucket, r.state.bucket, ArchivePath(auctionId, Auction), p);
    }
  }

  /** Each upload that removed its staging file archived it, and a successful upload always removes it. */
  lemma UploadPairFiles(s: State, auctionId: string, bidFault: UploadFault, auctionFault: UploadFault)
    ensures var bid := WriteToBucket(s, auctionId, Bid, bidFault);
            var r := WriteToBucket(bid.state, auctionId, Auction, auctionFault);
            && (StagingFile(auctionId, Bid) in s.staging && bidFault.Uploaded? ==>
                  StagingFile(auctionId, Bid) !in r.state.staging)
            && (StagingFile(auctionId, Auction) in s.staging && auctionFault.Uploaded? ==>
                  StagingFile(auctionId, Auction) !in r.state.staging)
            && (forall t :: StagingFile(auctionId, t) in s.staging && StagingFile(auctionId, t) !in r.state.staging ==>
                  && ArchivePath(auctionId, t) in r.state.bucket
                  && r.state.bucket[ArchivePath(auctionId, t)] == CsvBlob(s.staging[StagingFile(auctionId, t)]))
            && (forall t :: StagingFile(auctionId, t) in r.state.staging ==>
                  StagingFile(auctionId, t) in s.staging
                  && r.state.staging[StagingFile(auctionId, t)] == s.staging[StagingFile(auctionId, t)])
  {
    RelationalGateway.StagingFilesDiffer(auctionId);
    ArchivePathsDiffer(auctionId);
    var bid := WriteToBucket(s, auctionId, Bid, bidFault);
    var r := WriteToBucket(bid.state, auctionId, Auction, auctionFault);
    assert SameAt(s.staging, bid.state.staging, StagingFile(auctionId, Auction));
    assert SameAt(bid.state.staging, r.state.staging, StagingFile(auctionId, Bid));
    assert SameAt(bid.state.bucket, r.state.bucket, ArchivePath(auctionId, Bid));
  }

  /**
   After the two uploads, each table's archive object holds its staged
   contents if that put completed, and is untouched otherwise: a missing
   file, a failed read and a failed put all leave it as it was.
   */
  lemma UploadedObjects(s: State, auctionId: string, bidFault: UploadFault, auctionFault: UploadFault)
    ensures var r := UploadArchives(s, auctionId, bidFault, auctionFault);
            && ArchiveObject(s.staging, s.bucket, r.state.bucket, auctionId, Bid, bidFault)
            && ArchiveObject(s.staging, s.bucket, r.state.bucket, auctionId, Auction, auctionFault)
  {
    RelationalGateway.StagingFilesDiffer(auctionId);
    ArchivePathsDiffer(auctionId);
    var bid := WriteToBucket(s, auctionId, Bid, bidFault);
    var auction := WriteToBucket(bid.state, auctionId, Auction, auctionFault);
    assert UploadArchives(s, auctionId, bidFault, auctionFault).state == auction.state;
    assert SameAt(s.staging, bid.state.staging, StagingFile(auctionId, Auction));
    assert SameAt(s.bucket, bid.state.bucket, ArchivePath(auctionId, Auction));
    assert SameAt(bid.state.bucket, auction.state.bucket, ArchivePath(auctionId, Bid));
  }

  /**
   What follows a successful document read: the static put, and then, only
   if it succeeded, the two CSV uploads.
   */
  function ArchiveRecord(s: State, auctionId: string, record: AuctionData, f: ArchiveFaults): (r: Step)
    ensures r.state.db == s.db && r.state.docs == s.docs && r.state.outbox == s.outbox
    ensures f.staticPutFails ==> r == Step(s, Raised(StaticUploadFailed))
    ensures r.outcome == Normal ==>
              StaticPath(record) in r.state.bucket && r.state.bucket[StaticPath(record)] == JsonBlob(record)
    ensures forall t :: StagingFile(auctionId, t) in s.staging && StagingFile(auctionId, t) !in r.state.staging ==>
              && ArchivePath(auctionId, t) in r.state.bucket
              && r.state.bucket[ArchivePath(auctionId, t)] == CsvBlob(s.staging[StagingFile(auctionId, t)])
    ensures forall p :: p != StaticPath(record) && p != ArchivePath(auctionId, Bid) && p != ArchivePath(auctionId, Auction) ==>
              SameAt(s.bucket, r.state.bucket, p)
    ensures forall p :: p != StagingFile(auctionId, Bid) && p != StagingFile(auctionId, Auction) ==>
              SameAt(s.staging, r.state.staging, p)
    ensures !f.staticPutFails ==>
              && StaticPath(record) in r.state.bucket && r.state.bucket[StaticPath(record)] == JsonBlob(record)
              && (r.outcome.Raised? <==>
                    PutRaises(s.staging, auctionId, Bid, f.bidUpload) || PutRaises(s.staging, auctionId, Auction, f.auctionUpload))
              && (r.outcome.Raised? ==> r.outcome == Raised(ArchiveUploadFailed))
    ensures !f.staticPutFails && f.bidUpload.Uploaded? && StagingFile(auctionId, Bid) in s.staging ==>
              StagingFile(auctionId, Bid) !in r.state.staging
    ensures !f.staticPutFails && f.auctionUpload.Uploaded? && StagingFile(auctionId, Auction) in s.staging ==>
              StagingFile(auctionId, Auction) !in r.state.staging
    ensures !f.staticPutFails ==>
              && ArchiveObject(s.staging, s.bucket, r.state.bucket, auctionId, Bid, f.bidUpload)
              && ArchiveObject(s.staging, s.bucket, r.state.bucket, auctionId, Auction, f.auctionUpload)
  {
    var pushed := PushStatic(s, record, f.staticPutFails);
    if pushed.outcome.Raised? then pushed
    else
      StaticPathIsNotArchivePath(record, auctionId, Bid);
      StaticPathIsNotArchivePath(record, auctionId, Auction);
      PushedObjects(s, auctionId, record, f.bidUpload, f.auctionUpload);
      UploadArchives(pushed.state, auctionId, f.bidUpload, f.auctionUpload)
  }

  /** The static put does not touch the CSV archive objects, so the uploads that follow it decide them alone. */
  lemma PushedObjects(s: State, auctionId: string, record: AuctionData, bidFault: UploadFault, auctionFault: UploadFault)
    ensures var r := UploadArchives(PushStatic(s, record, false).state, auctionId, bidFault, auctionFault);
            && ArchiveObject(s.staging, s.bucket, r.state.bucket, auctionId, Bid, bidFault)
            && ArchiveObject(s.staging, s.bucket, r.state.bucket, auctionId, Auction, auctionFault)
  {
    var pushed := PushStatic(s, record, false);
    StaticPathIsNotArchivePath(record, auctionId, Bid);
    StaticPathIsNotArchivePath(record, auctionId, Auction);
    assert SameAt(s.bucket, pushed.state.bucket, ArchivePath(auctionId, Bid));
    assert SameAt(s.bucket, pushed.state.bucket, ArchivePath(auctionId, Auction));
    UploadedObjects(pushed.state, auctionId, bidFault, auctionFault);
  }

  /**
   `archiveAuctionData`. The exports and the static branch both complete;
   a failure of the static branch then propagates before the CSV uploads
   start.
   */
  function ArchiveAuctionData(s: State, auctionId: string, category: string, f: ArchiveFaults): (r: Step)
    ensures r.state.db == s.db && r.state.docs == s.docs && r.state.outbox == s.outbox
    ensures (f.documentReadFails || f.staticPutFails) ==>
              && r.outcome.Raised?
              && r.state.staging == Staged(s, auctionId, f)
              && r.state.bucket == s.bucket
    ensures !f.documentReadFails && !f.staticPutFails ==>
              var record := DocumentRecord(s, auctionId, category);
              StaticPath(record) in r.state.bucket && r.state.bucket[StaticPath(record)] == JsonBlob(record)
    ensures forall t :: StagingFile(auctionId, t) in Staged(s, auctionId, f) && StagingFile(auctionId, t) !in r.state.staging ==>
              && ArchivePath(auctionId, t) in r.state.bucket
              && r.state.bucket[ArchivePath(auctionId, t)] == CsvBlob(Staged(s, auctionId, f)[StagingFile(auctionId, t)])
    ensures forall p :: p != StaticPath(DocumentRecord(s, auctionId, category))
                        && p != ArchivePath(auctionId, Bid) && p != ArchivePath(auctionId, Auction) ==>
              SameAt(s.bucket, r.state.bucket, p)
    ensures forall p :: p != StagingFile(auctionId, Bid) && p != StagingFile(auctionId, Auction) ==>
              SameAt(s.staging, r.state.staging, p)
    ensures f.documentReadFails ==> r.outcome == Raised(DocumentReadFailed)
    ensures !f.documentReadFails && f.staticPutFails ==> r.outcome == Raised(StaticUploadFailed)
    ensures !f.documentReadFails && !f.staticPutFails ==>
              var staged := Staged(s, auctionId, f);
              && (r.outcome.Raised? <==>
                    PutRaises(staged, auctionId, Bid, f.bidUpload) || PutRaises(staged, auctionId, Auction, f.auctionUpload))
              && (r.outcome.Raised? ==> r.outcome == Raised(ArchiveUploadFailed))
    ensures !f.documentReadFails && !f.staticPutFails && f.bidUpload.Uploaded?
            && StagingFile(auctionId, Bid) in Staged(s, auctionId, f) ==>
              && StagingFile(auctionId, Bid) !in r.state.staging
              && r.state.bucket[ArchivePath(auctionId, Bid)] == CsvBlob(Staged(s, auctionId, f)[StagingFile(auctionId, Bid)])
    ensures !f.documentReadFails && !f.staticPutFails && f.auctionUpload.Uploaded?
            && StagingFile(auctionId, Auction) in Staged(s, auctionId, f) ==>
              && StagingFile(auctionId, Auction) !in r.state.staging
              && r.state.bucket[ArchivePath(auctionId, Auction)] == CsvBlob(Staged(s, auctionId, f)[StagingFile(auctionId, Auction)])
    ensures !f.documentReadFails && !f.staticPutFails ==>
              && ArchiveObject(Staged(s, auctionId, f), s.bucket, r.state.bucket, auctionId, Bid, f.bidUpload)
              && ArchiveObject(Staged(s, auctionId, f), s.bucket, r.state.bucket, auctionId, Auction, f.auctionUpload)
  {
    var staged := s.(staging := Staged(s, auctionId, f));
    StagedFrame(s, auctionId, f);
    var document := DocumentGateway.Read(s.docs, auctionId, category, f.documentReadFails);
    if document.Err? then Step(staged, Raised(document.error))
    else
      assert document.value == DocumentRecord(s, auctionId, category);
      var r := ArchiveRecord(staged, auctionId, document.value, f);
      assert !f.staticPutFails ==> r.state.bucket[StaticPath(document.value)] == JsonBlob(document.value);
      assert !f.staticPutFails ==>
               && ArchiveObject(staged.staging, staged.bucket, r.state.bucket, auctionId, Bid, f.bidUpload)
               && ArchiveObject(staged.staging, staged.bucket, r.state.bucket, auctionId, Auction, f.auctionUpload);
      assert forall p :: p != StagingFile(auctionId, Bid) && p != StagingFile(auctionId, Auction) ==>
               SameAt(s.staging, r.state.staging, p) by {
        forall p | p != StagingFile(auctionId, Bid) && p != StagingFile(auctionId, Auction)
          ensures SameAt(s.staging, r.state.staging, p)
        {
          assert SameAt(s.staging, staged.staging, p);
          assert SameAt(staged.staging, r.state.staging, p);
        }
      }
      r
  }

  /** The exports change no staging file but this auction's two. */
  lemma StagedFrame(s: State, auctionId: string, f: ArchiveFaults)
    ensures forall p :: p != StagingFile(auctionId, Bid) && p != StagingFile(auctionId, Auction) ==>
              SameAt(s.staging, Staged(s, auctionId, f), p)
  {
    var bidFile := StagingFile(auctionId, Bid);
    var auctionFile := StagingFile(auctionId, Auction);
    assert bidFile == RelationalGateway.BidStagingFile(auctionId);
    assert auctionFile == RelationalGateway.AuctionStagingFile(auctionId);
  }

  lemma ArchivePathsDiffer(auctionId: string)
    ensures ArchivePath(auctionId, Bid) != ArchivePath(auctionId, Auction)
  {
    if ArchivePath(auctionId, Bid) == ArchivePath(auctionId, Auction) {
      ArchivePathInjective(auctionId, Bid, auctionId, Auction);
    }
  }

  // ---------------------------------------------------------------------------
  // Cleanup
  // ---------------------------------------------------------------------------

  datatype CleanupFaults = CleanupFaults(transaction: RelationalGateway.TransactionFault, deleteLost: bool)

  /**
   `cleanUpAuctionData`: the relational transaction and the document delete
   both run; a failed transaction propagates once both are done.
   */
  function CleanUpAuctionData(s: State, auctionId: string, category: string, f: CleanupFaults): (r: Step)
    ensures r.state.staging == s.staging && r.state.bucket == s.bucket && r.state.outbox == s.outbox
    ensures f.transaction.Commits? ==>
              r.outcome == Normal && auctionId !in r.state.db.auctions && auctionId !in r.state.db.bids
    ensures !f.transaction.Commits? ==> r.outcome == Raised(TransactionFailed) && r.state.db == s.db
    ensures SameExcept(s.db.auctions, r.state.db.auctions, auctionId)
    ensures SameExcept(s.db.bids, r.state.db.bids, auctionId)
    ensures r.state.db.userEmails == s.db.userEmails
    ensures !f.deleteLost ==> DocumentGateway.Key(auctionId, category) !in r.state.docs
    ensures f.deleteLost ==> r.state.docs == s.docs
    ensures SameExcept(s.docs, r.state.docs, DocumentGateway.Key(auctionId, category))
  {
    var (db, outcome) := RelationalGateway.CleanData(s.db, auctionId, f.transaction);
    var docs := DocumentGateway.Delete(s.docs, auctionId, category, f.deleteLost);
    Step(s.(db := db, docs := docs), outcome)
  }

  /** Cleaning up an already cleaned-up auction changes nothing and raises nothing. */
  lemma CleanUpIdempotent(s: State, auctionId: string, category: string)
    ensures var f := CleanupFaults(RelationalGateway.Commits, false);
            var once := CleanUpAuctionData(s, auctionId, category, f);
            CleanUpAuctionData(once.state, auctionId, category, f) == once
  {
  }
}

=== FILE: relational_gateway.dfy ===
/**
 The relational store gateway: the outcome read that decides the winner, the
 BID and AUCTION exports to CSV staging files, and the two-table delete
 transaction.
 */
module RelationalGateway {
  import opened Optional
  import opened AuctionRecord
  import opened Stores

  // ---------------------------------------------------------------------------
  // Outcome read: AUCTION joined with C_USER on C_USER_ID
  // ---------------------------------------------------------------------------

  /**
   The outcome query returns a row only when the auction exists, names a
   user, and that user exists: it is an inner join, so an auction without a
   matching C_USER row yields nothing.
   */
  predicate HasJoinedRow(db: Database, auctionId: string) {
    && auctionId in db.auctions
    && db.auctions[auctionId].userId.Some?
    && db.auctions[auctionId].userId.value in db.userEmails
  }

  /** `getAuctionData`: the outcome projection of one auction. */
  function ReadOutcome(db: Database, auctionId: string): (r: AuctionData)
    ensures !HasJoinedRow(db, auctionId) ==> forall f :: IsNull(Get(r, f))
    ensures HasJoinedRow(db, auctionId) ==>
              && r.auctionId == Some(auctionId)
              && r.maxBidPrice == db.auctions[auctionId].maxBidPrice
              && r.winnerEmail == db.userEmails[db.auctions[auctionId].userId.value]
    ensures forall f :: f !in {AuctionId, MaxBidPrice, WinnerEmail} ==> IsNull(Get(r, f))
  {
    var empty := Fresh();
    if !HasJoinedRow(db, auctionId) then empty
    else
      var row := db.auctions[auctionId];
      var withId := SetAuctionId(empty, Some(auctionId));
      var withPrice := if row.maxBidPrice.Some? then SetMaxBidPrice(withId, row.maxBidPrice) else withId;
      var email := db.userEmails[row.userId.value];
      if email.Some? then SetWinnerEmail(withPrice, email) else withPrice
  }

  // ---------------------------------------------------------------------------
  // CSV export
  // ---------------------------------------------------------------------------

  const BidColumns: seq<string> := ["BID_ID", "AUCTION_ID", "C_USER_ID", "MAX_BID_PRICE", "BID_TIME"]

  const AuctionColumns: seq<string> :=
    ["AUCTION_ID", "CATEGORY", "BASE_PRICE", "MAX_BID_PRICE", "C_USER_ID",
     "AUCTION_CREATION_TIME", "AUCTION_EXPIRY_TIME"]

  /** The AUCTION columns whose SQL NULL the export writes as a null cell instead of failing. */
  const NullableAuctionColumns: set<string> := {"MAX_BID_PRICE", "C_USER_ID"}

  /** The header line: one text cell per column name. */
  function HeaderRow(names: seq<string>): (r: CsvRow)
    ensures |r| == |names|
    ensures forall i :: 0 <= i < |names| ==> r[i] == Some(Text(names[i]))
  {
    if names == [] then [] else [Some(Text(names[0]))] + HeaderRow(names[1..])
  }

  function TextCell(v: Option<string>): Option<Cell> {
    if v.Some? then Some(Text(v.value)) else None
  }

  function DecimalCell(v: Option<Price>): Option<Cell> {
    if v.Some? then Some(Decimal(v.value)) else None
  }

  function StampCell(v: Option<Timestamp>): Option<Cell> {
    if v.Some? then Some(Stamp(v.value)) else None
  }

  /** The value the result set holds for a named BID column (`None` for SQL NULL). */
  function BidColumn(auctionId: string, row: BidRow, name: string): Option<Cell> {
    if name == "BID_ID" then TextCell(row.bidId)
    else if name == "AUCTION_ID" then Some(Text(auctionId))
    else if name == "C_USER_ID" then TextCell(row.userId)
    else if name == "MAX_BID_PRICE" then DecimalCell(row.maxBidPrice)
    else if name == "BID_TIME" then StampCell(row.bidTime)
    else None
  }

  /** The value the result set holds for a named AUCTION column (`None` for SQL NULL). */
  function AuctionColumn(auctionId: string, row: AuctionRow, name: string): Option<Cell> {
    if name == "AUCTION_ID" then Some(Text(auctionId))
    else if name == "CATEGORY" then TextCell(row.category)
    else if name == "BASE_PRICE" then DecimalCell(row.basePrice)
    else if name == "MAX_BID_PRICE" then DecimalCell(row.maxBidPrice)
    else if name == "C_USER_ID" then TextCell(row.userId)
    else if name == "AUCTION_CREATION_TIME" then StampCell(row.creationTime)
    else if name == "AUCTION_EXPIRY_TIME" then StampCell(row.expiryTime)
    else None
  }

  /**
   One BID result row as a CSV line. Every cell is read with a typed getter
   that raises on SQL NULL, so a row with any NULL column yields `None`: the
   export stops there.
   */
  function BidCells(auctionId: string, row: BidRow): (r: Option<CsvRow>)
    ensures r.Some? <==> forall i :: 0 <= i < |BidColumns| ==> BidColumn(auctionId, row, BidColumns[i]).Some?
    ensures r.Some? ==> |r.value| == |BidColumns|
    ensures r.Some? ==> forall i :: 0 <= i < |BidColumns| ==> r.value[i] == BidColumn(auctionId, row, BidColumns[i])
  {
    if row.bidId.None? || row.userId.None? || row.maxBidPrice.None? || row.bidTime.None? then
      assert BidColumn(auctionId, row, BidColumns[0]).None? || BidColumn(auctionId, row, BidColumns[2]).None?
          || BidColumn(auctionId, row, BidColumns[3]).None? || BidColumn(auctionId, row, BidColumns[4]).None?;
      None
    else
      Some([Some(Text(row.bidId.value)), Some(Text(auctionId)), Some(Text(row.userId.value)),
            Some(Decimal(row.maxBidPrice.value)), Some(Stamp(row.bidTime.value))])
  }

  /**
   One AUCTION result row as a CSV line. MAX_BID_PRICE and C_USER_ID are
   checked for NULL and left as null cells; the other columns go through
   typed getters that raise on NULL.
   */
  function AuctionCells(auctionId: string, row: AuctionRow): (r: Option<CsvRow>)
    ensures r.Some? <==>
              forall i :: 0 <= i < |AuctionColumns| && AuctionColumns[i] !in NullableAuctionColumns ==>
                AuctionColumn(auctionId, row, AuctionColumns[i]).Some?
    ensures r.Some? ==> |r.value| == |AuctionColumns|
    ensures r.Some? ==> forall i :: 0 <= i < |AuctionColumns| ==> r.value[i] == AuctionColumn(auctionId, row, AuctionColumns[i])
  {
    if row.category.None? || row.basePrice.None? || row.creationTime.None? || row.expiryTime.None? then
      assert AuctionColumn(auctionId, row, AuctionColumns[1]).None? || AuctionColumn(auctionId, row, AuctionColumns[2]).None?
          || AuctionColumn(auctionId, row, AuctionColumns[5]).None? || AuctionColumn(auctionId, row, AuctionColumns[6]).None?;
      None
    else
      Some([Some(Text(auctionId)), Some(Text(row.category.value)), Some(Decimal(row.basePrice.value)),
            DecimalCell(row.maxBidPrice), TextCell(row.userId),
            Some(Stamp(row.creationTime.value)), Some(Stamp(row.expiryTime.value))])
  }

  /**
   The lines the result loop writes: each row converted in result order, up
   to (not including) the first row whose conversion raises.
   */
  function Rendered<R>(rows: seq<R>, convert: R -> Option<CsvRow>): (lines: seq<CsvRow>)
    ensures |lines| <= |rows|
    ensures forall i :: 0 <= i < |lines| ==> convert(rows[i]) == Some(lines[i])
    ensures |lines| < |rows| ==> convert(rows[|lines|]).None?
  {
    if rows == [] then []
    else
      match convert(rows[0])
      case None => []
      case Some(line) => [line] + Rendered(rows[1..], convert)
  }

  /** The three properties of `Rendered` determine it. */
  lemma {:induction false} RenderedCharacterized<R>(rows: seq<R>, convert: R -> Option<CsvRow>, lines: seq<CsvRow>)
    requires |lines| <= |rows|
    requires forall i :: 0 <= i < |lines| ==> convert(rows[i]) == Some(lines[i])
    requires |lines| < |rows| ==> convert(rows[|lines|]).None?
    ensures lines == Rendered(rows, convert)
  {
    if rows == [] {
    } else if lines == [] {
      assert convert(rows[0]).None?;
    } else {
      assert convert(rows[0]) == Some(lines[0]);
      assert forall i :: 0 <= i < |lines[1..]| ==> rows[1..][i] == rows[i + 1] && lines[1..][i] == lines[i + 1];
      RenderedCharacterized(rows[1..], convert, lines[1..]);
    }
  }

  /**
   The export loop: write the header, then one line per result row while
   the rows convert; a row that raises ends the export with the lines
   written so far.
   */
  method WriteCsv<R>(header: CsvRow, rows: seq<R>, convert: R -> Option<CsvRow>) returns (file: CsvTable)
    ensures file == [header] + Rendered(rows, convert)
  {
    var lines: seq<CsvRow> := [];
    var i := 0;
    while i < |rows|
      invariant i <= |rows| && |lines| == i
      invariant forall j :: 0 <= j < i ==> convert(rows[j]) == Some(lines[j])
    {
      var converted := convert(rows[i]);
      if converted.None? {
        break;
      }
      lines := lines + [converted.value];
      i := i + 1;
    }
    RenderedCharacterized(rows, convert, lines);
    file := [header] + lines;
  }

  /**
   How one export attempt goes. All of them are caught inside the export, so
   none reaches the caller.
   */
  datatype ExportFault =
    | Exported               // the query and every write succeed
    | QueryFails             // the query raises before the staging file is created
    | WriteFailsAt(line: nat) // writing line `line` (0 is the header) raises, if reached

  /** The staging directory after an export that meant to write `file` to `path`. */
  function Stage(staging: map<string, CsvTable>, path: string, file: CsvTable, fault: ExportFault)
    : (r: map<string, CsvTable>)
    ensures SameExcept(staging, r, path)
    ensures fault.QueryFails? ==> r == staging
    ensures !fault.QueryFails? ==> path in r && r[path] <= file
    ensures fault.Exported? ==> r[path] == file
  {
    match fault
    case QueryFails => staging
    case Exported => staging[path := file]
    case WriteFailsAt(k) => staging[path := file[..if k < |file| then k else |file|]]
  }

  /** The BID rows of one auction, in result order. */
  function BidsOf(db: Database, auctionId: string): seq<BidRow> {
    if auctionId in db.bids then db.bids[auctionId] else []
  }

  /** The AUCTION rows of one auction: at most one, since AUCTION_ID is the key. */
  function AuctionsOf(db: Database, auctionId: string): seq<AuctionRow> {
    if auctionId in db.auctions then [db.auctions[auctionId]] else []
  }

  /** The BID export's file: the auction id between "/tmp/" and "_BID.csv". */
  function BidStagingFile(auctionId: string): (r: string)
    ensures |r| == |auctionId| + 13
    ensures r[..5] == "/tmp/" && r[5..|r| - 8] == auctionId && r[|r| - 8..] == "_BID.csv"
  {
    "/tmp/" + auctionId + "_BID.csv"
  }

  /** The AUCTION export's file: the auction id between "/tmp/" and "_AUCTION.csv". */
  function AuctionStagingFile(auctionId: string): (r: string)
    ensures |r| == |auctionId| + 17
    ensures r[..5] == "/tmp/" && r[5..|r| - 12] == auctionId && r[|r| - 12..] == "_AUCTION.csv"
  {
    "/tmp/" + auctionId + "_AUCTION.csv"
  }

  /** Everything the BID export intends to write: the header and the converted rows. */
  function BidFile(db: Database, auctionId: string): CsvTable {
    [HeaderRow(BidColumns)] + Rendered(BidsOf(db, auctionId), row => BidCells(auctionId, row))
  }

  /** Everything the AUCTION export intends to write: the header and the converted rows. */
  function AuctionFile(db: Database, auctionId: string): CsvTable {
    [HeaderRow(AuctionColumns)] + Rendered(AuctionsOf(db, auctionId), row => AuctionCells(auctionId, row))
  }

  /**
   What a staged export file can hold: a prefix of the header followed by the
   converted rows, in result order.
   */
  predicate IsPartialExport<R>(file: CsvTable, header: CsvRow, rows: seq<R>, convert: R -> Option<CsvRow>) {
    && |file| <= |rows| + 1
    && (|file| > 0 ==> file[0] == header)
    && (forall i :: 0 < i < |file| ==> convert(rows[i - 1]) == Some(file[i]))
  }

  /** Every line of a staged prefix has the header's width. */
  lemma {:induction false} PartialExportShape<R>(file: CsvTable, header: CsvRow, rows: seq<R>, convert: R -> Option<CsvRow>)
    requires file <= [header] + Rendered(rows, convert)
    requires forall row :: convert(row).Some? ==> |convert(row).value| == |header|
    ensures IsPartialExport(file, header, rows, convert)
    ensures forall line :: line in file ==> |line| == |header|
  {
    var full := [header] + Rendered(rows, convert);
    forall i | 0 < i < |file|
      ensures convert(rows[i - 1]) == Some(file[i])
    {
      assert file[i] == full[i] == Rendered(rows, convert)[i - 1];
    }
    forall line | line in file
      ensures |line| == |header|
    {
      var i :| 0 <= i < |file| && file[i] == line;
      if i > 0 {
        assert convert(rows[i - 1]) == Some(line);
      }
    }
  }

  /** `archiveBidData`: stage the BID rows of one auction as CSV. */
  function ExportBids(db: Database, auctionId: string, staging: map<string, CsvTable>, fault: ExportFault)
    : (r: map<string, CsvTable>)
    ensures SameExcept(staging, r, BidStagingFile(auctionId))
    ensures fault.QueryFails? ==> r == staging
    ensures !fault.QueryFails? ==> BidStagingFile(auctionId) in r
    ensures !fault.QueryFails? ==>
              var file := r[BidStagingFile(auctionId)];
              && IsPartialExport(file, HeaderRow(BidColumns), BidsOf(db, auctionId), row => BidCells(auctionId, row))
              && (forall line :: line in file ==> |line| == |BidColumns|)
    ensures fault.Exported? ==> r[BidStagingFile(auctionId)] == BidFile(db, auctionId)
  {
    var r := Stage(staging, BidStagingFile(auctionId), BidFile(db, auctionId), fault);
    if fault.QueryFails? then r
    else
      PartialExportShape(r[BidStagingFile(auctionId)], HeaderRow(BidColumns), BidsOf(db, auctionId), row => BidCells(auctionId, row));
      r
  }

  /** `archiveAuctionData` of the gateway: stage the AUCTION row of one auction as CSV. */
  function ExportAuctions(db: Database, auctionId: string, staging: map<string, CsvTable>, fault: ExportFault)
    : (r: map<string, CsvTable>)
    ensures SameExcept(staging, r, AuctionStagingFile(auctionId))
    ensures fault.QueryFails? ==> r == staging
    ensures !fault.QueryFails? ==> AuctionStagingFile(auctionId) in r
    ensures !fault.QueryFails? ==>
              var file := r[AuctionStagingFile(auctionId)];
              && IsPartialExport(file, HeaderRow(AuctionColumns), AuctionsOf(db, auctionId), row => AuctionCells(auctionId, row))
              && (forall line :: line in file ==> |line| == |AuctionColumns|)
    ensures fault.Exported? ==> r[AuctionStagingFile(auctionId)] == AuctionFile(db, auctionId)
  {
    var r := Stage(staging, AuctionStagingFile(auctionId), AuctionFile(db, auctionId), fault);
    if fault.QueryFails? then r
    else
      PartialExportShape(r[AuctionStagingFile(auctionId)], HeaderRow(AuctionColumns), AuctionsOf(db, auctionId), row => AuctionCells(auctionId, row));
      r
  }

  /**
   With no fault and no NULL in a required column, the BID file is the
   header followed by exactly one line per bid, in result order.
   */
  lemma {:induction false} CompleteBidExport(db: Database, auctionId: string)
    requires forall i :: 0 <= i < |BidsOf(db, auctionId)| ==> BidCells(auctionId, BidsOf(db, auctionId)[i]).Some?
    ensures |BidFile(db, auctionId)| == |BidsOf(db, auctionId)| + 1
    ensures BidFile(db, auctionId)[0] == HeaderRow(BidColumns)
    ensures forall i :: 0 <= i < |BidsOf(db, auctionId)| ==>
              BidFile(db, auctionId)[i + 1] == BidCells(auctionId, BidsOf(db, auctionId)[i]).value
  {
    var rows := BidsOf(db, auctionId);
    var lines := Rendered(rows, row => BidCells(auctionId, row));
    forall i | 0 <= i < |rows|
      ensures BidFile(db, auctionId)[i + 1] == BidCells(auctionId, rows[i]).value
    {
      assert BidFile(db, auctionId)[i + 1] == lines[i];
    }
  }

  /** `archiveData`: both exports; they write different files, so their order does not matter. */
  function ArchiveData(db: Database, auctionId: string, staging: map<string, CsvTable>, bidFault: ExportFault, auctionFault: ExportFault)
    : (r: map<string, CsvTable>)
    ensures forall path :: path != BidStagingFile(auctionId) && path != AuctionStagingFile(auctionId) ==>
              (path in r <==> path in staging) && (path in r ==> r[path] == staging[path])
    ensures SameAt(r, ExportBids(db, auctionId, staging, bidFault), BidStagingFile(auctionId))
    ensures SameAt(r, ExportAuctions(db, auctionId, staging, auctionFault), AuctionStagingFile(auctionId))
  {
    BothExportsKept(db, auctionId, staging, bidFault, auctionFault);
    OtherFilesKept(db, auctionId, staging, bidFault, auctionFault);
    ExportAuctions(db, auctionId, ExportBids(db, auctionId, staging, bidFault), auctionFault)
  }

  /** The two exports leave every other staging file as it was. */
  lemma OtherFilesKept(db: Database, auctionId: string, staging: map<string, CsvTable>, bidFault: ExportFault, auctionFault: ExportFault)
    ensures var r := ExportAuctions(db, auctionId, ExportBids(db, auctionId, staging, bidFault), auctionFault);
            forall path :: path != BidStagingFile(auctionId) && path != AuctionStagingFile(auctionId) ==>
              (path in r <==> path in staging) && (path in r ==> r[path] == staging[path])
  {
    var bids := ExportBids(db, auctionId, staging, bidFault);
    var r := ExportAuctions(db, auctionId, bids, auctionFault);
    forall path | path != BidStagingFile(auctionId) && path != AuctionStagingFile(auctionId)
      ensures (path in r <==> path in staging) && (path in r ==> r[path] == staging[path])
    {
      SameExceptAt(staging, bids, BidStagingFile(auctionId), path);
      SameExceptAt(bids, r, AuctionStagingFile(auctionId), path);
    }
  }

  /** Each export's file survives the other export. */
  lemma BothExportsKept(db: Database, auctionId: string, staging: map<string, CsvTable>, bidFault: ExportFault, auctionFault: ExportFault)
    ensures var r := ExportAuctions(db, auctionId, ExportBids(db, auctionId, staging, bidFault), auctionFault);
            && SameAt(r, ExportBids(db, auctionId, staging, bidFault), BidStagingFile(auctionId))
            && SameAt(r, ExportAuctions(db, auctionId, staging, auctionFault), AuctionStagingFile(auctionId))
  {
    StagingFilesDiffer(auctionId);
    var bids := ExportBids(db, auctionId, staging, bidFault);
    var r := ExportAuctions(db, auctionId, bids, auctionFault);
    SameExceptAt(bids, r, AuctionStagingFile(auctionId), BidStagingFile(auctionId));
    ExportsCommute(db, auctionId, staging, bidFault, auctionFault);
    SameExceptAt(ExportAuctions(db, auctionId, staging, auctionFault), r, BidStagingFile(auctionId), AuctionStagingFile(auctionId));
  }

  lemma StagingFilesDiffer(auctionId: string)
    ensures BidStagingFile(auctionId) != AuctionStagingFile(auctionId)
  {
    assert |BidStagingFile(auctionId)| != |AuctionStagingFile(auctionId)|;
  }

  /**
   The two exports touch different staging files, so running them one after
   the other in either order gives the same directory as running them side by side.
   */
  lemma ExportsCommute(db: Database, auctionId: string, staging: map<string, CsvTable>, bidFault: ExportFault, auctionFault: ExportFault)
    ensures ExportAuctions(db, auctionId, ExportBids(db, auctionId, staging, bidFault), auctionFault)
         == ExportBids(db, auctionId, ExportAuctions(db, auctionId, staging, auctionFault), bidFault)
  {
    StagingFilesDiffer(auctionId);
    StagesCommute(staging, BidStagingFile(auctionId), BidFile(db, auctionId), bidFault,
                  AuctionStagingFile(auctionId), AuctionFile(db, auctionId), auctionFault);
  }

  lemma StagesCommute(staging: map<string, CsvTable>, p1: string, f1: CsvTable, e1: ExportFault, p2: string, f2: CsvTable, e2: ExportFault)
    requires p1 != p2
    ensures Stage(Stage(staging, p1, f1, e1), p2, f2, e2) == Stage(Stage(staging, p2, f2, e2), p1, f1, e1)
  {
  }

  // ---------------------------------------------------------------------------
  // Cleanup transaction
  // ---------------------------------------------------------------------------

  /** Where the read-write transaction can fail; any failure rolls it back. */
  datatype TransactionFault = Commits | BidDeleteFails | AuctionDeleteFails | CommitFails

  /** `cleanData`: delete the BID rows, then the AUCTION row, in one transaction. */
  function CleanData(db: Database, auctionId: string, fault: TransactionFault): (r: (Database, Outcome))
    ensures fault.Commits? ==> r.1 == Normal && auctionId !in r.0.bids && auctionId !in r.0.auctions
    ensures !fault.Commits? ==> r.0 == db && r.1 == Raised(TransactionFailed)
    ensures SameExcept(db.bids, r.0.bids, auctionId)
    ensures SameExcept(db.auctions, r.0.auctions, auctionId)
    ensures r.0.userEmails == db.userEmails
  {
    if fault.BidDeleteFails? then (db, Raised(TransactionFailed))
    else
      // the transaction's own view: the bid delete has happened, nothing is published yet
      var afterBids := db.(bids := db.bids - {auctionId});
      if fault.AuctionDeleteFails? then (db, Raised(TransactionFailed))
      else
        var afterAuction := afterBids.(auctions := afterBids.auctions - {auctionId});
        if fault.CommitFails? then (db, Raised(TransactionFailed))
        else (afterAuction, Normal)
  }

  /**
   The transaction is all-or-nothing: whatever happens, either both tables
   lose the auction's rows or the database is exactly as before.
   */
  lemma CleanDataAllOrNothing(db: Database, auctionId: string, fault: TransactionFault)
    ensures var after := CleanData(db, auctionId, fault).0;
            after == db || (auctionId !in after.bids && auctionId !in after.auctions)
  {
  }
}

=== FILE: stores.dfy ===
/**
 The abstract state the workflow acts on: the relational tables, the document
 collections, the local staging directory, the archive bucket and the outbox
 of sent mail; plus the error kinds the workflow can raise.
 */
module Stores {
  import opened Optional
  import opened AuctionRecord

  /** A database timestamp; its text form is not modelled. */
  datatype Timestamp = Timestamp(seconds: int, nanos: nat)

  /** A row of the AUCTION table; its key AUCTION_ID is the key of `Database.auctions`. */
  datatype AuctionRow = AuctionRow(
    category: Option<string>,
    basePrice: Option<Price>,
    maxBidPrice: Option<Price>,
    userId: Option<string>,
    creationTime: Option<Timestamp>,
    expiryTime: Option<Timestamp>)

  /** A row of the BID table; its AUCTION_ID is the key it is filed under in `Database.bids`. */
  datatype BidRow = BidRow(
    bidId: Option<string>,
    userId: Option<string>,
    maxBidPrice: Option<Price>,
    bidTime: Option<Timestamp>)

  /**
   The relational store: AUCTION rows by auction id, the BID rows of each
   auction in query-result order, and the EMAIL column of C_USER by user id.
   */
  datatype Database = Database(
    auctions: map<string, AuctionRow>,
    bids: map<string, seq<BidRow>>,
    userEmails: map<string, Option<string>>)

  /** One CSV cell before text rendering: numbers and timestamps stay symbolic. */
  datatype Cell = Text(text: string) | Decimal(price: Price) | Stamp(time: Timestamp)

  /** A CSV line; `None` is a null cell. */
  type CsvRow = seq<Option<Cell>>

  type CsvTable = seq<CsvRow>

  /** An object in the bucket: a staged CSV file's contents, or the JSON rendering of a record. */
  datatype Blob = CsvBlob(table: CsvTable) | JsonBlob(record: AuctionData)

  /** The text body: a fixed greeting followed by the JSON rendering of `details`. */
  datatype Body = Body(greeting: string, details: AuctionData)

  /** A sent mail with a single TO recipient. */
  datatype Message = Message(from: string, to: string, subject: string, body: Body)

  /** A document address: collection = category, document = auction id. */
  datatype DocKey = DocKey(collection: string, document: string)

  datatype State = State(
    db: Database,
    docs: map<DocKey, AuctionData>,
    staging: map<string, CsvTable>,
    bucket: map<string, Blob>,
    outbox: seq<Message>)

  datatype Error =
    | MalformedPayload
    | OutcomeReadFailed
    | DocumentReadFailed
    | SendFailed
    | StaticUploadFailed
    | ArchiveUploadFailed
    | TransactionFailed

  /** How an operation ended: normally, or by raising. */
  datatype Outcome = Normal | Raised(error: Error)

  datatype Result<+T> = Ok(value: T) | Err(error: Error)

  /** The state after an operation, with how it ended. */
  datatype Step = Step(state: State, outcome: Outcome)

  /** `m` and `m'` agree at `k`: both lack it, or both map it to the same value. */
  predicate SameAt<K, V(==)>(m: map<K, V>, m': map<K, V>, k: K) {
    (k in m <==> k in m') && (k in m ==> m'[k] == m[k])
  }

  /** `m` and `m'` agree everywhere except possibly at `k`. */
  predicate SameExcept<K, V(==)>(m: map<K, V>, m': map<K, V>, k: K) {
    && m.Keys - {k} == m'.Keys - {k}
    && (forall x :: x in m && x != k ==> x in m' && m'[x] == m[x])
  }

  /** A map changed at `k` only is unchanged at every other key. */
  lemma SameExceptAt<K, V>(m: map<K, V>, m': map<K, V>, k: K, x: K)
    requires SameExcept(m, m', k) && x != k
    ensures SameAt(m', m, x)
  {
    assert (x in m.Keys - {k}) == (x in m'.Keys - {k});
  }
}
